=== FILE: README.md ===
# fix-catdrive firmware surgery, modelled in Dafny

The fix-catdrive scripts patch the 8 MiB SPI-flash image of a small ARM NAS.
They do this without any firmware tool, by editing bytes in Python. This
project models that byte-level work as pure functions over `seq<byte>` and
proves what the scripts rely on:

- **The U-Boot environment block.** Each entry is written as `key=value\0` in
  dictionary order, and one more `\0` ends the list. The payload is
  zero-padded with `ljust` to `size-4`, and the CRC-32 of the padded bytes is
  put in front as a little-endian word. `EnvBlock` defines the encoder once,
  together with a decoder, the round trip between the two, and the
  parse-and-rewrite of `ethaddr` items that custom_identity.py performs.
- **The CRC-32** that `binascii.crc32` computes. It is defined bit by bit:
  reflected polynomial 0xEDB88320, initial register 0xFFFFFFFF, final
  exclusive-or 0xFFFFFFFF.
- **The vendor identity record.** Six MAC bytes go at 0x7EB000, followed by
  one checksum byte: the byte sum masked to 8 bits. A 128-byte slot at
  0x7EB020 is zeroed, then `SN=<sn>,CHK=<sum of ordinals>` is written into it.
- **Image composition:**
  - hybrid_ultimate.py uses bytearray slice assignment. It takes a U-Boot
    prefix, zero-pads to 8 MiB, then adds a device tree at 0xD1000, a kernel
    at 0xD5000 and a 4 KiB environment.
  - key_fix.py and fix_firmware.py replace the 64 KiB environment at 0xD0000
    in place.
  - custom_identity.py combines the vendor patch with an environment rewrite.
  - merge.py finds signatures with `find_header`, lays the parts out by seek
    and write, and pads the file with 0xFF.
- **The health check** of verify.py, modelled as a verdict over the merged
  image and the stock image.

The project has these modules:

- `Bytes`: the Python slicing, slice assignment, `ljust`, file writes,
  `struct` packing and searching.
- `Crc32`.
- `EnvBlock`.
- `Identity`: MAC text, checksums and vendor writes.
- `Signatures`: shared constants.
- One module per script: `HybridUltimate`, `KeyFix`, `FixFirmware`,
  `CustomIdentity`, `Merge` and `Verify`.
- `Wrappers`: `Option` and `Result`.

Python raises exceptions on some inputs; the model returns `None` or `Err` on
those inputs, apart from the cases listed under "## Left out".

## Model

| member | source | states |
|---|---|---|
| Bytes.Slice | merge.py:29-41 | A Python slice `s[lo:hi]` clamps both bounds. It has length max(0, min(hi,n) − min(lo,n)), is the exact sub-range when the bounds are in range, the whole tail from `lo` when only `hi` lies past the end, and is empty when it starts at or past the end. |
| Bytes.Assign | custom_identity.py:34 | bytearray slice assignment `s[lo:hi] = x`. When the range is inside the buffer, the prefix and suffix survive around `x`, so the length changes by \|x\| − (hi − lo). A range running past the end cuts the buffer at `lo` and appends `x`. A start past the end appends `x`. |
| Bytes.Splice | hybrid_ultimate.py:43 | `s[off:off+len(x)] = x`. When off ≤ \|s\|, the length is max(\|s\|, off+\|x\|), `x` sits at `off` and the bytes before it are kept; when `x` fits, the bytes after it are kept too. An offset past the end appends `x` with no gap. |
| Bytes.SpliceOutside | hybrid_ultimate.py:53 | A splice that fits leaves every byte outside `[off, off+\|x\|)` unchanged. |
| Bytes.LJust | hybrid_ultimate.py:86 | `ljust(n, b'\x00')` never truncates. The length is max(\|s\|, n), `s` is a prefix of the result, and the rest is zero. |
| Bytes.WriteAt | merge.py:44-51 | A seek followed by a write leaves a file max(\|f\|, pos+\|x\|) bytes long: a write past the end extends the file, and one inside it does not. |
| Bytes.WriteAtSpec | merge.py:44-51 | The write holds `x` at `pos`. Before `pos` the file keeps its old bytes; when the seek went past the end, it holds the old file and then a zero-filled gap. After the write the old bytes remain when the write ends inside the file. |
| Bytes.WriteAtKeeps | merge.py:44-51 | A write leaves every range it does not overlap unchanged. |
| Bytes.UnpackPack | hybrid_ultimate.py:88 | Reading back a `struct.pack('<I', v)` word gives `v`. |
| Bytes.PackUnpack | hybrid_ultimate.py:88 | Every 4-byte word is the little-endian packing of the value it reads as. |
| Bytes.IndexOfSpec | merge.py:3-7 | The search returns -1 iff the pattern occurs nowhere at or after `start`. Otherwise it returns the least such position, and the pattern occurs there. |
| Bytes.IndexOf | merge.py:3-7 | The search from a non-negative start gives -1 or a position at or after `start` where the pattern occurs. `IndexOfSpec` pins it down as the first such position. |
| Bytes.SearchStart | merge.py:37-38 | A non-negative search start is used as given. A negative one counts back from the end and is clamped at 0, as Python reads `index(x, -1)`. |
| Bytes.Sum | custom_identity.py:39 | `sum(mac_bytes)` is unbounded, at most 255 per byte. |
| Bytes.SumAppend | custom_identity.py:39 | The sum of a concatenation is the sum of the parts' sums. |
| Bytes.PackLE32 | fix_firmware.py:45 | `struct.pack('<I', crc)` gives four bytes. `UnpackPack` and `PackUnpack` show it is the inverse of `UnpackLE32`. |
| Bytes.UnpackLE32 | fix_firmware.py:45 | A four-byte little-endian word reads as a value below 2^32, the range the CRC word is packed from. |
| Crc32.Crc | hybrid_ultimate.py:87 | The CRC is a 32-bit value, so the script's `& 0xFFFFFFFF` changes nothing. |
| Crc32.UpdateAppend | hybrid_ultimate.py:87 | The register after `a + b` is the register after `a`, fed with `b`. The CRC can therefore be computed piecewise. |
| Crc32.CheckValue | custom_identity.py:97 | The CRC of "123456789" is 0xCBF43926, the check value of the CRC-32 that `binascii.crc32` implements. |
| EnvBlock.Items | hybrid_ultimate.py:81-82 | There is one `key=value` item per entry, in the order of the dictionary. |
| EnvBlock.Block | hybrid_ultimate.py:86-88 | The block is 4 + max(\|payload\|, size−4) bytes long. It is exactly `size` bytes iff the payload fits in size−4. The LE32 word in front equals the CRC-32 of everything after it. The payload follows that word, and the rest is zero. |
| EnvBlock.EncodeEnvLayout | key_fix.py:43-53 | The same facts for the payload of an entry list: the length iff, the CRC word, the payload, then zeros. |
| EnvBlock.BlockInPlace | key_fix.py:56 | Assigning a block to a range of its own length inside the image keeps the length. The range then holds the block, its CRC word and its data area, and every other byte is unchanged. |
| EnvBlock.PayloadOf3 | fix_firmware.py:33-36 | The payload of three entries is their items in order, each NUL-terminated, and one more NUL. |
| EnvBlock.Payload | fix_firmware.py:33-36 | The dictionary loop's payload, which always ends in the final NUL. `PayloadCons` unfolds it one entry at a time, `EncodeEnvLayout` places it in the block, and `DecodeEncode` reads the entries back from it. |
| EnvBlock.EncodeEnv | fix_firmware.py:33-45 | The shared encoder: payload, `ljust` to size−4, CRC word in front. `EncodeEnvLayout` states its layout, and `DecodeEncode` is its round trip. |
| EnvBlock.InstallEnv | key_fix.py:56 | When the region lies inside the image and the payload fits, the length is kept, the block is at `[off, off+size)` with a valid CRC word, and every other byte is unchanged. When the payload does not fit, the prefix is kept, the longer block follows it, and the bytes after the region move up by the excess. An image that ends inside the region is cut at `off` and ends with the block. One that ends before `off` gets the block appended. |
| EnvBlock.InstallEnvAt | fix_firmware.py:48 | With a payload that fits, for every image length: the block is at min(\|data\|, off), the bytes before it are the image's, the length is max(\|data\|, that position + size), and every image byte outside `[off, off+size)` is kept. |
| EnvBlock.PayloadCons | hybrid_ultimate.py:80-83 | The payload of `e` followed by `rest` is `key=value\0` of `e`, followed by the payload of `rest`. |
| EnvBlock.JoinTerminated | custom_identity.py:95 | Joining non-empty item lists with NUL and adding one NUL is the same as terminating each item with NUL. |
| EnvBlock.Join | custom_identity.py:95 | `b'\0'.join(items)`: the items with one NUL between neighbours. `JoinTerminated` relates it to NUL-terminating each item, and `JoinSplit` shows that `split(b'\0')` inverts it. |
| EnvBlock.JoinSplit | custom_identity.py:78 | `b'\0'.join(s.split(b'\0')) == s`. |
| EnvBlock.SplitNulFree | custom_identity.py:78 | No piece of a split on NUL contains a NUL. |
| EnvBlock.SplitPrefix | custom_identity.py:78 | Splitting a NUL-free `x`, then NUL, then `y` gives `x` followed by the pieces of `y`. |
| EnvBlock.SplitTerminated | custom_identity.py:78 | Splitting NUL-terminated NUL-free items followed by `z` gives back the items, followed by the pieces of `z`. |
| EnvBlock.DropEmptyAppend | custom_identity.py:84 | Skipping empty items distributes over concatenation. |
| EnvBlock.DropEmptyKeeps | custom_identity.py:84 | A list without empty items is unchanged by the skipping. |
| EnvBlock.DropEmptyMembers | custom_identity.py:83-84 | What survives the skipping is non-empty and comes from the list. |
| EnvBlock.Split | custom_identity.py:78 | `split(b'\0')` always gives at least one piece. `JoinSplit` and `SplitNulFree` pin the pieces down: the maximal NUL-free runs. |
| EnvBlock.ParseItems | custom_identity.py:77-84 | Split on NUL, then skip empty items: every item returned is non-empty and NUL-free; `ParseZeros` and `ParseTerminated` state what it returns for an all-zero region and for a terminated payload. |
| EnvBlock.ParseZeros | custom_identity.py:77-84 | A region of zeros holds no items. |
| EnvBlock.ParseTerminated | custom_identity.py:77-84 | Parsing NUL-terminated non-empty NUL-free items followed by zero padding gives exactly those items, in order. |
| EnvBlock.DecodeItemOf | hybrid_ultimate.py:82 | `key=value` splits back at its first `=` into the entry, given that the key has no `=`. |
| EnvBlock.DecodeItemsOf | hybrid_ultimate.py:81-82 | The items of a well-formed entry list decode back to the list. |
| EnvBlock.ItemsNulFree | hybrid_ultimate.py:81-82 | The items of a well-formed entry list are non-empty and NUL-free. |
| EnvBlock.DecodeEncode | hybrid_ultimate.py:80-88 | Round trip: an encoded block whose payload fits decodes, after its length and CRC are checked, to the entries written. |
| EnvBlock.DecodeEnv | fix_firmware.py:39-48 | Reads a stored block back: a decoded block is `size` bytes (at least 4) and its front word is the CRC-32 of the rest. `DecodeEncode` shows it inverts `EncodeEnv`. |
| EnvBlock.OthersAppend | custom_identity.py:83-92 | The non-`ethaddr` items of a concatenation are the concatenation of each part's. |
| EnvBlock.ReplaceKeepsOthers | custom_identity.py:83-89 | Replacing `ethaddr` items keeps every other item in place. Each item beginning `ethaddr=` becomes the replacement. |
| EnvBlock.ReplaceEthaddr | custom_identity.py:83-89 | The loop that swaps each `ethaddr=` item for the new one, giving a list of the same length. `ReplaceKeepsOthers` states which items change and which stay. |
| EnvBlock.RewriteClean | custom_identity.py:83-92 | The rewritten list is non-empty, and its items are non-empty and NUL-free when the MAC text is NUL-free. |
| EnvBlock.RewritePresent | custom_identity.py:83-89 | With an `ethaddr=` item present, the rewrite keeps the list length and the other items, and replaces every `ethaddr` item with the new one. |
| EnvBlock.RewriteAbsent | custom_identity.py:91-92 | With no `ethaddr=` item, the rewrite keeps the other items and appends exactly one new item. |
| EnvBlock.RewriteEthaddr | custom_identity.py:82-92 | The `ethaddr` loop and the fallback append. `RewritePresent`, `RewriteAbsent` and `RewriteEthaddrSpec` characterize it against `Others`. |
| EnvBlock.RewriteEthaddrSpec | custom_identity.py:82-92 | The rewrite keeps the non-`ethaddr` items in order. It grows the list by one exactly when no `ethaddr=` item existed. The new item is present, and every `ethaddr` item of the result is the new one. |
| Identity.FromHex | custom_identity.py:33 | `bytes.fromhex` succeeds exactly when the text has even length and every character is a hex digit of either case; the result then has half as many bytes as the text has characters. |
| Identity.StripColons | custom_identity.py:32 | `replace(':', '')` leaves no colon. |
| Identity.ParseMac | custom_identity.py:32-33 | Strip colons, then hex-decode. `ParseFormatMac` shows it inverts the usual MAC notation, and `MacTextAscii` shows accepted text is ASCII. |
| Identity.FromHexHex | custom_identity.py:33 | Hex-decoding the upper-case hex text of any bytes gives those bytes back. |
| Identity.StripHex | custom_identity.py:32 | Hex text has no colons to strip. |
| Identity.StripAppend | custom_identity.py:32 | Stripping colons distributes over concatenation. |
| Identity.StripFormat | custom_identity.py:32 | Stripping the colons from `AA:BB:..` gives the plain hex text. |
| Identity.ParseFormatMac | custom_identity.py:32-33 | Round trip: parsing the colon-separated text of any bytes gives those bytes. |
| Identity.ExampleFormat | custom_identity.py:12 | The six bytes 00 11 32 A3 67 EF print as the script's MAC text "00:11:32:A3:67:EF". |
| Identity.ExampleMac | custom_identity.py:32-33 | The script's MAC text parses to exactly six bytes, 00 11 32 A3 67 EF. |
| Identity.StripKeeps | custom_identity.py:32 | Every character other than a colon survives the stripping. |
| Identity.MacChecksum | custom_identity.py:39-43 | `sum(mac) & 0xFF` is one byte. `ExampleMacChecksum` evaluates it for the script's MAC. |
| Identity.SerialChecksum | custom_identity.py:50-52 | The unmasked sum of `ord(char)` over the serial. `AccumulateChecksum` runs the script's loop and meets it, `SerialChecksumAppend` shows it adds up over any cut of the serial, and `ExampleSerialChecksum` gives 713 for the script's serial. |
| Identity.MacTextAscii | custom_identity.py:86 | Text that parses as a MAC is NUL-free ASCII. Its `encode('ascii')` cannot fail, and the `ethaddr` item it forms does not split on NUL. |
| Identity.ExampleMacChecksum | custom_identity.py:38-43 | For 00:11:32:A3:67:EF the byte sum is 0x23C and the checksum byte is 0x3C. |
| Identity.SerialChecksumAppend | custom_identity.py:50-52 | The checksum of a + b is the checksum of a plus that of b, so CHK is never reduced; proved by induction. |
| Identity.AccumulateChecksum | custom_identity.py:50-52 | The `chk_sum += ord(char)` loop from 0 returns the checksum of the whole serial. |
| Identity.Decimal | custom_identity.py:56 | `str(n)` is never empty. `DecimalRoundTrip` shows it is digits with no leading zero that read back as `n`. |
| Identity.VendorString | custom_identity.py:56 | `f"SN={sn},CHK={chk}"`. `VendorStringSpec` states its shape for every serial, and `ExampleVendorString` gives the script's string. |
| Identity.VendorStringSpec | custom_identity.py:50-56 | For every serial the text is "SN=", the serial, ",CHK=", then decimal digits with no leading zero that read back as the serial's checksum. |
| Identity.DecimalRoundTrip | custom_identity.py:56 | The decimal text of `n` is all digits, has no leading zero, and reads back as `n`. |
| Identity.ExampleSerialChecksum | custom_identity.py:50-52 | The ordinals of "1910Q2N321313" add up to 713. |
| Identity.ExampleVendorString | custom_identity.py:56 | The script's vendor string is "SN=1910Q2N321313,CHK=713". |
| Identity.Ascii | custom_identity.py:57 | `encode('ascii')` fails iff some character is at or above 128. Otherwise each byte is the character's code. |
| Identity.PatchMac | custom_identity.py:33-43 | With six MAC bytes, the patch succeeds iff `v+6` lies inside the image. On success the length is unchanged, `[v, v+6)` holds the MAC, `v+6` holds the masked sum, and every other byte is unchanged. A MAC of another length resizes the image. |
| Identity.PatchMacFacts | custom_identity.py:34 | The six-byte slice assignment writes in place. |
| Identity.WriteSlot | custom_identity.py:61-66 | When the slot is inside the image, its length is unchanged. The slot holds the vendor bytes, then zeros up to 128, and nothing outside the slot changes. |
| Identity.WriteSlotFacts | custom_identity.py:64-66 | The clearing and the string write together leave exactly that slot content. |
| CustomIdentity.CreateCustomFirmware | custom_identity.py:29-101 | The failures come in the script's order: unparsable MAC text, then a checksum index past the end, then a non-ASCII vendor string. A six-byte MAC, a long-enough image and an ASCII vendor string always succeed. The script's `encode('ascii')` of the MAC text cannot fail once the text has parsed, so no failure is modelled for it. |
| CustomIdentity.EnvItems | custom_identity.py:77-84 | The items read from `[0xD0004, 0xD1000)` are non-empty and NUL-free. |
| CustomIdentity.NewPayload | custom_identity.py:95 | The rewritten items joined with NUL, then two NULs. `NewBlockReadsBack` shows the block built from it parses back to those items. |
| CustomIdentity.RewriteEnv | custom_identity.py:76-101 | The re-encoded environment written over `[0xD0000, 0xD1000)`. `EnvStage` states the case where the payload fits, and `RewriteEnvOverflow` the case where it does not. |
| CustomIdentity.RewriteEnvOverflow | custom_identity.py:95-101 | A payload over 0xFFC bytes is not truncated. The image grows by the excess, the CRC word covers the whole payload, and every byte from 0xD1000 on, the vendor record included, moves up by the excess. |
| CustomIdentity.NewBlockReadsBack | custom_identity.py:95-101 | The rebuilt block is exactly 0x1000 bytes when the new payload fits. Parsing its data area gives back the rewritten item list. |
| CustomIdentity.VendorStage | custom_identity.py:29-66 | The vendor writes keep the length and place the MAC, the checksum byte, the vendor string and the zeroed slot. They change nothing outside the seven record bytes and the slot. |
| CustomIdentity.EnvStage | custom_identity.py:73-101 | The environment rewrite keeps the length and writes a valid CRC. The items read back as the old ones with `ethaddr` rewritten, and nothing outside `[0xD0000, 0xD1000)` changes. |
| CustomIdentity.SuccessPath | custom_identity.py:29-101 | On valid inputs the script is the vendor writes followed by the environment rewrite. |
| CustomIdentity.StagesPatch | custom_identity.py:29-101 | The two stages together leave the image patched as `Patched` describes. |
| CustomIdentity.CreateCustomFirmwareSpec | custom_identity.py:29-101 | Given a six-byte MAC, an ASCII vendor string of at most 128 bytes, an image reaching past the slot, and a payload that fits, the script succeeds. The output has the same length and holds the MAC, the checksum, the vendor string and a zeroed slot tail. Its environment has a valid CRC and the rewritten items, and every other byte is unchanged. |
| HybridUltimate.BaseImage | hybrid_ultimate.py:27-30 | The base is 8388608 bytes. Its first min(\|old\|, 0xD0000) bytes are the old image, and the rest is zero. |
| HybridUltimate.Entries | hybrid_ultimate.py:73-78 | The dictionary in insertion order: `ethaddr`, `bootcmd`, `bootargs`, with the three values as parameters. `CreateHybridFirmwareSpec` reads exactly these entries back out of the written block. |
| HybridUltimate.Dtb | hybrid_ultimate.py:34-36 | The device-tree slice is at most 6914 bytes, and exactly `src[0xB0750:0xB0750+6914]` when the source is long enough. |
| HybridUltimate.Kernel | hybrid_ultimate.py:49-50 | The kernel is the tail of the source from 0xD5000, or empty when the source is shorter. |
| HybridUltimate.CreateHybridFirmware | hybrid_ultimate.py:39-40 | The warning is raised iff the first four device-tree bytes are not D0 0D FE ED. The image does not depend on it. |
| HybridUltimate.Composed | hybrid_ultimate.py:25-53 | The base image with the device tree and the kernel assigned into it. `ComposedLayout` states its layout. |
| HybridUltimate.ComposedLayout | hybrid_ultimate.py:27-53 | Before the environment write, the image is max(8 MiB, \|src\|) long. From the start it holds the U-Boot prefix, zeros, the device tree at 0xD1000, zeros, the kernel at 0xD5000, and zeros to the end. |
| HybridUltimate.CreateHybridFirmwareSpec | hybrid_ultimate.py:59-91 | The 4 KiB environment ends exactly at 0xD1000, where the device tree starts. The image is 8 MiB iff the source is at most 8 MiB. Outside `[0xD0000, 0xD1000)` it equals the composed image. The CRC word is valid, and the block decodes to the three entries. |
| HybridUltimate.DtbFitsBeforeKernel | hybrid_ultimate.py:34-53 | A full device tree ends at 0xD2B02, below the kernel at 0xD5000. |
| KeyFix.PayloadStartsWithKey | key_fix.py:26-46 | The payload begins with `key=<key>\0ethaddr=<mac>\0`, in dictionary order. |
| KeyFix.Entries | key_fix.py:26-40 | Seven entries in insertion order: `key`, `ethaddr`, `syno_bootargs`, `bootcmd`, then `image_name=Image`, `netdev=eth0` and `boot_targets=sata usb mmc0`; the first four values are parameters. `KeysWellFormed` shows all seven keys are valid names, and `CreateUnlockedFirmwareSpec` decodes these entries back. |
| KeyFix.CreateUnlockedFirmware | key_fix.py:24-56 | The seven-entry dictionary encoded and assigned over `[0xD0000, 0xE0000)`. `CreateUnlockedFirmwareSpec` states the result for every image length. |
| KeyFix.KeysWellFormed | key_fix.py:26-40 | The seven literal keys contain no NUL and no `=`, so every entry encodes to one item. |
| KeyFix.CreateUnlockedFirmwareSpec | key_fix.py:43-56 | For any image length, when the payload fits, the 64 KiB block is at 0xD0000, or at the end of a shorter image, with the image's bytes before it. An image reaching 0xE0000 keeps its length, and every input byte outside `[0xD0000, 0xE0000)` is kept. The CRC word is valid, and the block decodes to the seven entries. |
| FixFirmware.FinalFix | fix_firmware.py:21-22 | The size warning is raised iff the input is not 8388608 bytes. The output image does not depend on it. |
| FixFirmware.Entries | fix_firmware.py:26-30 | Three entries in insertion order: `bootargs`, `preboot`, `ethaddr`, with the values as parameters. `EntriesWellFormed` shows the keys are valid names, and `PayloadShape` gives the payload they encode to. |
| FixFirmware.FinalFixSpec | fix_firmware.py:21-48 | The size check only warns, so every length is processed. When the payload fits, the 64 KiB block is at 0xD0000, or at the end of an image shorter than that, with the image's bytes before it. An image reaching 0xE0000 keeps its length; a shorter one ends with the block. Every input byte outside `[0xD0000, 0xE0000)` is kept, the CRC word covers the 0xFFFC bytes after it, and the block decodes to the three entries. |
| FixFirmware.EntriesWellFormed | fix_firmware.py:26-30 | The three literal keys contain no NUL and no `=`, so NUL-free values make a well-formed entry list. |
| FixFirmware.PayloadShape | fix_firmware.py:26-36 | The payload is `bootargs=..\0preboot=..\0ethaddr=..\0\0`: dictionary order, ending in a double NUL. |
| Merge.FindHeader | merge.py:3-7 | Returns -1 iff the magic occurs nowhere at or after the search start, where a negative `start` counts back from the end. Otherwise it returns the least position there where it occurs. |
| Merge.Find | merge.py:3-7 | `find_header` as a function: −1, or an offset at or after the resolved start that holds the magic. `FindHeader` computes it, and `IndexOfSpec` gives the first-occurrence property. |
| Merge.Locate | merge.py:32-38 | The device-tree offset is the first D0 0D FE ED in the image. The kernel offset is the first uImage magic from the device tree's offset on, and -1 when the device tree is missing. The ramdisk offset is the first uImage magic from kernel offset + 0x10000 on, even when the kernel offset is -1. |
| Merge.LocateOrder | merge.py:32-41 | With all three headers found, the offsets are in order, the ramdisk at least 0x10000 past the kernel, and each holds its magic. |
| Merge.Extract | merge.py:29-41 | The U-Boot part is the first min(\|old\|, 0xCC800) bytes of the old image. The device-tree part is the newer image from its magic for 0x8000 bytes or to the end. The kernel part is the bytes from the kernel header up to the ramdisk header, the ramdisk part is everything from the ramdisk header on, and together they are the image's tail from the kernel header. |
| Merge.PartsHeaders | merge.py:29-41 | The device-tree part starts with D0 0D FE ED and is at most 0x8000 bytes. The kernel part starts with the uImage magic and is at least 0x10000 bytes long, because the ramdisk search starts that far on. The ramdisk part starts with the uImage magic. |
| Merge.LayoutUboot | merge.py:44-51 | The U-Boot part survives the later writes, which all start at or above 0xCC800. |
| Merge.LayoutDtb | merge.py:44-51 | The device tree survives the kernel and ramdisk writes, which start beyond it. |
| Merge.LayoutKernel | merge.py:48-51 | The kernel survives below 0x500000, where the ramdisk write starts. |
| Merge.LayoutSpec | merge.py:44-51 | After the four writes, the file length is max(0xD5000 + \|kernel\|, end of ramdisk). The U-Boot part, the device tree and the ramdisk are intact. The kernel is intact below 0x500000, and wholly when it fits its room. |
| Merge.LayoutGaps | merge.py:44-49 | The seeks leave zeros: from the end of the U-Boot part to 0xCC800, and from the end of the device tree to 0xD5000. |
| Merge.Layout | merge.py:44-51 | The four seek-and-write steps in the script's order. `LayoutSpec` states what they leave. |
| Merge.FinishKeeps | merge.py:54-56 | Padding keeps everything before the final position, fills with 0xFF up to 0x800000, and the file is at least 0x800000 bytes long. |
| Merge.KernelOverrun | merge.py:48-51 | A kernel longer than 0x500000 − 0xD5000 is overwritten by the ramdisk. The byte at 0x500000 is the ramdisk's first byte, so the kernel survives only if its own byte there agrees. |
| Merge.FinishSpec | merge.py:44-56 | The padded file holds each part in place: U-Boot, the device tree, the kernel's header, the kernel when it fits, and the ramdisk, followed by 0xFF up to 8 MiB. The two seek gaps before 0xCC800 and before 0xD5000 are zero. |
| Merge.Finish | merge.py:53-56 | Padding with 0xFF from the final position to 8 MiB. `FinishKeeps` and `FinishSpec` state the result. |
| Merge.MergeFirmware | merge.py:9-56 | The whole merge. `MergeFirmwareSpec` and `MergedFromSource` state its result. |
| Merge.MergeFirmwareSpec | merge.py:9-56 | The output is 8 MiB iff the kernel and the ramdisk end by 0x800000. It starts with the first min(\|old\|, 0xCC800) bytes of the old image, followed by zeros up to 0xCC800 when the old image is shorter. The device-tree range ends before 0xD5000, with zeros from its end to 0xD5000. The device tree and the ramdisk are in place, the kernel is in place when it fits, and 0xFF fills from the ramdisk's end to 8 MiB. |
| Merge.MergedHeaders | merge.py:44-49 | The merged image is at least 0xD5004 bytes long, the device-tree magic `D0 0D FE ED` sits at 0xCC800, and the uImage magic `27 05 19 56` sits at 0xD5000. These are the bytes a health check reads. |
| Merge.MergedFromSource | merge.py:29-56 | In terms of the newer image's bytes: the device tree from its magic (0x8000 bytes or to the end) is at 0xCC800, the bytes from the kernel header to the ramdisk header are at 0xD5000 when they fit below 0x500000, and everything from the ramdisk header on is at 0x500000. |
| Verify.Read4 | verify.py:37-38 | `read(4)` after a seek returns the four bytes there, or fewer near the end. |
| Verify.CheckFirmwareHealth | verify.py:15-53 | The check stops with the size iff the image is not 8388608 bytes. It reports a modified U-Boot iff the first 0xCC800 bytes differ from the stock image's, including when the stock image is shorter. Otherwise it completes. The two magic flags are true iff D0 0D FE ED is at 0xCC800 and 27 05 19 56 is at 0xD5000, and their failures do not stop the check. |
| Verify.MergedImagePasses | verify.py:15-51 | An image merged from a stock image of at least 0xCC800 bytes passes, with both magics found, exactly when the merge came out at 8 MiB. Otherwise the check stops at the size. |

## Left out

- decompile_scan.py: it decodes instructions with the Capstone disassembler, which is not part of this model.
- File handling: opening, reading and writing files, `os.path.exists` (including verify.py's early return when a file is missing), and all `print` output. Images are parameters, and the written file is the returned sequence.
- The boot strings (`bootcmd`, `bootargs`, `preboot`, `syno_bootargs`) and the MAC and key literals are parameters of the per-script functions. Their contents are opaque, and the lemmas require only that they contain no NUL and that the payload fits.
- Python dictionaries are modelled as entry sequences in insertion order. Every dictionary in the scripts has distinct literal keys, so no duplicate-key overwriting is modelled.
- The CRC-32 is specified bit by bit rather than with the table-driven loop `binascii` uses; the two compute the same function.
- Identity.FromHex: rejects whitespace. `bytes.fromhex` would skip ASCII whitespace between byte pairs, but the colon-separated MAC text the scripts use never contains any.
- Merge.Extract: requires that all three headers are found. `Merge.Locate` covers the searches for every image, including -1 results. When a header is missing, merge.py slices with -1 as a bound, and those slices and the writes after them are not modelled.
- Bytes.WriteAt: an empty write past the end extends the file to `pos`, which a real file does not do. Every write that merge.py makes past the end is non-empty once the headers are found.
- EnvBlock.DecodeEnv: a reader for the block, used to state the round trip. U-Boot's own environment loader is not part of this model.
- HybridUltimate.CreateHybridFirmwareSpec, KeyFix.CreateUnlockedFirmwareSpec, FixFirmware.FinalFixSpec and CustomIdentity.EnvStage state the decoded block only when the payload fits. When it does not fit, the block is longer than the region; `EnvBlock.InstallEnv` states that case for hybrid_ultimate.py, key_fix.py and fix_firmware.py, and `CustomIdentity.RewriteEnvOverflow` states it for custom_identity.py when the region lies inside the image.

=== FILE: bytes.dfy ===
/**
 Byte sequences and the buffer operations the firmware scripts perform on them:
 Python slicing and slice assignment on a `bytearray`, file writes after a seek,
 `ljust` padding, little-endian 32-bit packing, additive sums and substring search.
 */
module Bytes {

  type byte = b: int | 0 <= b < 256

  const NUL: byte := 0
  const TWO32: int := 0x1_0000_0000

  /** `n` copies of the byte `b` (Python `bytes([b]) * n`). */
  function Fill(n: nat, b: byte): (r: seq<byte>)
    ensures |r| == n
    ensures forall i :: 0 <= i < n ==> r[i] == b
  {
    seq(n, _ => b)
  }

  function Zeros(n: nat): (r: seq<byte>)
    ensures |r| == n
    ensures forall i :: 0 <= i < n ==> r[i] == 0
  {
    Fill(n, 0)
  }

  /** A Python `b'...'` literal written with ASCII text. */
  function OfString(s: string): (r: seq<byte>)
    ensures |r| == |s|
    ensures forall i :: 0 <= i < |s| ==> r[i] == (s[i] as int) % 256
  {
    seq(|s|, i requires 0 <= i < |s| => (s[i] as int) % 256)
  }

  predicate AllZero(s: seq<byte>)
  {
    forall i :: 0 <= i < |s| ==> s[i] == 0
  }

  function Min(a: int, b: int): int { if a <= b then a else b }
  function Max(a: int, b: int): int { if a <= b then b else a }

  /**
   Python `s[lo:hi]` for non-negative bounds: both ends are clamped to the
   length and an empty range gives the empty sequence; it never fails.
   */
  function Slice(s: seq<byte>, lo: nat, hi: nat): (r: seq<byte>)
    ensures |r| == Max(0, Min(hi, |s|) - Min(lo, |s|))
    ensures hi <= |s| && lo <= hi ==> r == s[lo..hi]
    ensures lo <= |s| <= hi ==> r == s[lo..]
    ensures |s| <= lo ==> r == []
  {
    var a := Min(lo, |s|);
    var b := Max(a, Min(hi, |s|));
    s[a..b]
  }

  /**
   Python slice assignment `s[lo:hi] = x` on a `bytearray`: the clamped range
   `[lo, hi)` is replaced by `x` whatever their lengths, so the buffer grows or
   shrinks by the difference; a range that starts past the end appends `x`.
   */
  function Assign(s: seq<byte>, lo: nat, hi: nat, x: seq<byte>): (r: seq<byte>)
    ensures lo <= hi <= |s| ==> |r| == |s| - (hi - lo) + |x|
    ensures lo <= hi <= |s| ==> r[..lo] == s[..lo] && r[lo..lo + |x|] == x && r[lo + |x|..] == s[hi..]
    ensures lo <= |s| <= hi ==> r == s[..lo] + x
    ensures |s| < lo ==> r == s + x
  {
    var a := Min(lo, |s|);
    var b := Max(a, Min(hi, |s|));
    s[..a] + x + s[b..]
  }

  /**
   Python slice assignment `s[off:off+len(x)] = x` on a `bytearray`. The range
   is clamped like `Slice`; `x` replaces whatever the clamped range holds, so a
   value longer than the remaining buffer grows it, and an offset past the end
   appends `x` at the end without filling any gap.
   */
  function Splice(s: seq<byte>, off: nat, x: seq<byte>): (r: seq<byte>)
    ensures off + |x| <= |s| ==> |r| == |s|
    ensures off <= |s| ==> |r| == Max(|s|, off + |x|)
    ensures |s| < off ==> r == s + x
    ensures off <= |s| ==> r[..off] == s[..off] && r[off..off + |x|] == x
    ensures off + |x| <= |s| ==> r[off + |x|..] == s[off + |x|..]
  {
    var a := Min(off, |s|);
    var b := Min(off + |x|, |s|);
    s[..a] + x + s[b..]
  }

  /** An in-place slice assignment leaves every byte outside the written range alone. */
  lemma SpliceOutside(s: seq<byte>, off: nat, x: seq<byte>)
    requires off + |x| <= |s|
    ensures forall i :: 0 <= i < |s| && !(off <= i < off + |x|) ==> Splice(s, off, x)[i] == s[i]
  {
    var r := Splice(s, off, x);
    forall i | 0 <= i < |s| && !(off <= i < off + |x|)
      ensures r[i] == s[i]
    {
      if i < off {
        assert r[i] == r[..off][i];
      } else {
        assert r[i] == r[off + |x|..][i - off - |x|];
      }
    }
  }

  /** `s`, right-padded with zeros up to length `n`; like Python `ljust`, it never truncates. */
  function LJust(s: seq<byte>, n: nat): (r: seq<byte>)
    ensures |r| == Max(|s|, n)
    ensures r[..|s|] == s
    ensures AllZero(r[|s|..])
  {
    if |s| < n then s + Zeros(n - |s|) else s
  }

  /**
   Writing `x` to a file positioned at `pos` after a seek: a seek past the end
   leaves a gap that reads back as zeros, and the write overwrites the bytes it
   covers (last write wins) and extends the file when it runs past the end.
   */
  function WriteAt(f: seq<byte>, pos: nat, x: seq<byte>): (r: seq<byte>)
    ensures |r| == Max(|f|, pos + |x|)
  {
    if |f| < pos then f + Zeros(pos - |f|) + x
    else if |f| < pos + |x| then f[..pos] + x
    else f[..pos] + x + f[pos + |x|..]
  }

  /**
   What a write leaves: `x` at `pos`; before it the old bytes, or the old file
   followed by a zero gap; after it the old bytes when the write ends inside
   the file.
   */
  lemma WriteAtSpec(f: seq<byte>, pos: nat, x: seq<byte>)
    ensures var r := WriteAt(f, pos, x);
            && r[pos..pos + |x|] == x
            && (pos <= |f| ==> r[..pos] == f[..pos])
            && (|f| < pos ==> r[..pos] == f + Zeros(pos - |f|))
            && (pos + |x| <= |f| ==> r[pos + |x|..] == f[pos + |x|..])
  {
  }

  /** Concatenation is associative. */
  lemma AppendAssoc<T>(a: seq<T>, b: seq<T>, c: seq<T>)
    ensures (a + b) + c == a + (b + c)
  {
  }

  /** Equal prefixes have equal slices inside them. */
  lemma PrefixSlice(a: seq<byte>, b: seq<byte>, n: nat, lo: nat, hi: nat)
    requires n <= |a| && n <= |b| && a[..n] == b[..n]
    requires lo <= hi <= n
    ensures a[lo..hi] == b[lo..hi]
  {
    assert a[lo..hi] == a[..n][lo..hi];
    assert b[lo..hi] == b[..n][lo..hi];
  }

  /** A write leaves alone every range of the file it does not cover. */
  lemma WriteAtKeeps(f: seq<byte>, pos: nat, x: seq<byte>, lo: nat, hi: nat)
    requires lo <= hi <= |f|
    requires hi <= pos || pos + |x| <= lo
    ensures hi <= |WriteAt(f, pos, x)|
    ensures WriteAt(f, pos, x)[lo..hi] == f[lo..hi]
  {
    var r := WriteAt(f, pos, x);
    WriteAtSpec(f, pos, x);
    if hi <= pos {
      PrefixSlice(r, f, hi, lo, hi);
    } else {
      var e := pos + |x|;
      assert r[lo..hi] == r[e..][lo - e..hi - e];
      assert f[lo..hi] == f[e..][lo - e..hi - e];
    }
  }

  /** Little-endian 32-bit encoding (Python `struct.pack('<I', v)`). */
  function PackLE32(v: nat): (r: seq<byte>)
    requires v < TWO32
    ensures |r| == 4
  {
    var q1 := v / 256;
    var q2 := q1 / 256;
    [v % 256, q1 % 256, q2 % 256, q2 / 256]
  }

  /** Little-endian 32-bit decoding (Python `struct.unpack('<I', s)[0]`). */
  function UnpackLE32(s: seq<byte>): (r: nat)
    requires |s| == 4
    ensures r < TWO32
  {
    s[0] as int + 256 * (s[1] as int + 256 * (s[2] as int + 256 * s[3] as int))
  }

  lemma DivModDigit(a: int, q: int)
    requires 0 <= a < 256
    ensures (a + 256 * q) % 256 == a && (a + 256 * q) / 256 == q
  {
  }

  lemma UnpackPack(v: nat)
    requires v < TWO32
    ensures UnpackLE32(PackLE32(v)) == v
  {
    var q1 := v / 256;
    var q2 := q1 / 256;
    assert q2 % 256 + 256 * (q2 / 256) == q2;
    assert q1 % 256 + 256 * q2 == q1;
    assert v % 256 + 256 * q1 == v;
  }

  lemma PackUnpack(s: seq<byte>)
    requires |s| == 4
    ensures PackLE32(UnpackLE32(s)) == s
  {
    var v2 := s[2] as int + 256 * s[3] as int;
    var v1 := s[1] as int + 256 * v2;
    DivModDigit(s[0], v1);
    DivModDigit(s[1], v2);
    DivModDigit(s[2], s[3]);
  }

  /** Unbounded sum of the byte values (Python `sum(bytes)`). */
  function Sum(s: seq<byte>): (r: nat)
    ensures r <= 255 * |s|
  {
    if |s| == 0 then 0 else Sum(s[..|s| - 1]) + s[|s| - 1]
  }

  /** The sum of a concatenation is the sum of the sums, so it can be taken in any split. */
  lemma {:induction false} SumAppend(a: seq<byte>, b: seq<byte>)
    ensures Sum(a + b) == Sum(a) + Sum(b)
    decreases |b|
  {
    if |b| == 0 {
      assert a + b == a;
    } else {
      var c := a + b;
      assert c[..|c| - 1] == a + b[..|b| - 1];
      SumAppend(a, b[..|b| - 1]);
    }
  }

  predicate StartsWith(s: seq<byte>, prefix: seq<byte>)
  {
    |prefix| <= |s| && s[..|prefix|] == prefix
  }

  predicate OccursAt(s: seq<byte>, pat: seq<byte>, i: int)
  {
    0 <= i && i + |pat| <= |s| && s[i..i + |pat|] == pat
  }

  /**
   Python `s.find(pat, start)` for a non-negative start: the least index at or
   after `start` where `pat` occurs, or -1 when there is none.
   */
  function IndexOf(s: seq<byte>, pat: seq<byte>, start: nat): (r: int)
    ensures r == -1 || (start <= r && OccursAt(s, pat, r))
    decreases |s| - start
  {
    if start + |pat| > |s| then -1
    else if s[start..start + |pat|] == pat then start
    else IndexOf(s, pat, start + 1)
  }

  /**
   Where a search given `start` begins in a sequence of length `n`: a negative
   start counts back from the end and is clamped at 0, as Python reads it.
   */
  function SearchStart(n: nat, start: int): (r: nat)
    ensures 0 <= start ==> r == start
    ensures start < 0 ==> r == Max(0, n + start)
  {
    if 0 <= start then start else if n + start < 0 then 0 else n + start
  }

  /** `r` is the first index at or after `start` where `pat` occurs, or -1 when it occurs nowhere from there. */
  ghost predicate FirstFrom(s: seq<byte>, pat: seq<byte>, start: nat, r: int)
  {
    && (r == -1 <==> forall i :: start <= i ==> !OccursAt(s, pat, i))
    && (r != -1 ==> start <= r && OccursAt(s, pat, r) && forall i :: start <= i < r ==> !OccursAt(s, pat, i))
  }

  lemma {:induction false} IndexOfSpec(s: seq<byte>, pat: seq<byte>, start: nat)
    ensures FirstFrom(s, pat, start, IndexOf(s, pat, start))
    decreases |s| - start
  {
    if start + |pat| > |s| {
    } else if s[start..start + |pat|] == pat {
      assert OccursAt(s, pat, start);
    } else {
      IndexOfSpec(s, pat, start + 1);
      assert !OccursAt(s, pat, start);
    }
  }
}

=== FILE: crc32.dfy ===
/**
 The CRC-32 of ISO 3309 / ITU-T V.42 section 8.1.1.6.2 (the checksum of
 section 2.3.1 of RFC 1952, computed by Python's `binascii.crc32`): reflected
 polynomial 0xEDB88320, register preset to all ones, result complemented.
 It is defined bit-serially, one shift per message bit.
 */
module Crc32 {
  import opened Bytes

  const POLY: bv32 := 0xEDB8_8320

  /** One bit of the reflected shift register. */
  function Shift(c: bv32): bv32
  {
    if c & 1 == 1 then (c >> 1) ^ POLY else c >> 1
  }

  /** Feeds the eight bits of `b`, least significant first. */
  function Feed(c: bv32, b: byte): bv32
  {
    var x := c ^ (b as bv32);
    Shift(Shift(Shift(Shift(Shift(Shift(Shift(Shift(x))))))))
  }

  /** The register after feeding `data` in order, starting from `c`. */
  function Update(c: bv32, data: seq<byte>): bv32
    decreases |data|
  {
    if |data| == 0 then c else Update(Feed(c, data[0]), data[1..])
  }

  /** CRC-32 as an unsigned value (Python `binascii.crc32(data) & 0xFFFFFFFF`). */
  function Crc(data: seq<byte>): (r: nat)
    ensures r < TWO32
  {
    (Update(0xFFFF_FFFF, data) ^ 0xFFFF_FFFF) as nat
  }

  /** Feeding a concatenation is feeding its parts in turn: the checksum can be streamed. */
  lemma {:induction false} UpdateAppend(c: bv32, a: seq<byte>, b: seq<byte>)
    ensures Update(c, a + b) == Update(Update(c, a), b)
    decreases |a|
  {
    if |a| == 0 {
      assert a + b == b;
    } else {
      assert (a + b)[1..] == a[1..] + b;
      UpdateAppend(Feed(c, a[0]), a[1..], b);
    }
  }

  /** The register after each of the first five digits of "123456789". */
  lemma CheckFeedsLow()
    ensures Feed(0xFFFF_FFFF, 0x31) == 0x7c23_1048
    ensures Feed(0x7c23_1048, 0x32) == 0xb0ac_bb32
    ensures Feed(0xb0ac_bb32, 0x33) == 0x77b7_9c2d
    ensures Feed(0x77b7_9c2d, 0x34) == 0x641c_1f5c
    ensures Feed(0x641c_1f5c, 0x35) == 0x340a_c5e3
  {
  }

  /** The register after each of the last four digits of "123456789". */
  lemma CheckFeedsHigh()
    ensures Feed(0x340a_c5e3, 0x36) == 0xf68d_2c9e
    ensures Feed(0xf68d_2c9e, 0x37) == 0xaffc_9660
    ensures Feed(0xaffc_9660, 0x38) == 0x651f_2550
    ensures Feed(0x651f_2550, 0x39) == 0x340b_c6d9
  {
  }

  /** The register after the first five digits of "123456789". */
  lemma CheckHead(h: seq<byte>)
    requires h == [0x31, 0x32, 0x33, 0x34, 0x35]
    ensures Update(0xFFFF_FFFF, h) == 0x340a_c5e3
  {
    CheckFeedsLow();
    assert Update(0x340a_c5e3, h[5..]) == 0x340a_c5e3;
    assert Update(0x641c_1f5c, h[4..]) == 0x340a_c5e3;
    assert Update(0x77b7_9c2d, h[3..]) == 0x340a_c5e3;
    assert Update(0xb0ac_bb32, h[2..]) == 0x340a_c5e3;
    assert Update(0x7c23_1048, h[1..]) == 0x340a_c5e3;
  }

  /** The register after the last four digits, fed on from there. */
  lemma CheckTail(t: seq<byte>)
    requires t == [0x36, 0x37, 0x38, 0x39]
    ensures Update(0x340a_c5e3, t) == 0x340b_c6d9
  {
    CheckFeedsHigh();
    assert Update(0x340b_c6d9, t[4..]) == 0x340b_c6d9;
    assert Update(0x651f_2550, t[3..]) == 0x340b_c6d9;
    assert Update(0xaffc_9660, t[2..]) == 0x340b_c6d9;
    assert Update(0xf68d_2c9e, t[1..]) == 0x340b_c6d9;
  }

  /** The standard check value: the CRC-32 of the ASCII digits "123456789" is 0xCBF43926. */
  lemma CheckValue(s: seq<byte>)
    requires s == [0x31, 0x32, 0x33, 0x34, 0x35, 0x36, 0x37, 0x38, 0x39]
    ensures Crc(s) == 0xCBF4_3926
  {
    CheckHead(s[..5]);
    CheckTail(s[5..]);
    UpdateAppend(0xFFFF_FFFF, s[..5], s[5..]);
    assert s[..5] + s[5..] == s;
  }
}

=== FILE: customidentity.dfy ===
/**
 custom_identity.py: stamps a MAC address and a serial number into the vendor
 area of an image and rewrites the `ethaddr` entry of its 4 KiB environment.
 */
module CustomIdentity {
  import opened Bytes
  import opened Wrappers
  import opened EnvBlock
  import opened Identity
  import Crc32

  const VENDOR_OFFSET: nat := 0x7EB000
  /** The serial-number slot, 0x20 bytes into the vendor area. */
  const SN_OFFSET: nat := VENDOR_OFFSET + 0x20
  const ENV_OFFSET: nat := 0xD0000
  const ENV_SIZE: nat := 0x1000

  /** The exceptions the script can raise before it writes its output. */
  datatype Failure =
    | BadMacText       // `bytes.fromhex` rejects the MAC text
    | ChecksumPastEnd  // IndexError: the checksum byte lies past the image
    | NonAsciiSerial   // the SN string does not encode as ASCII

  /** The items the script reads from the environment region `[0xD0004, 0xD1000)`. */
  function EnvItems(data: seq<byte>): (r: seq<seq<byte>>)
    ensures forall j :: 0 <= j < |r| ==> |r[j]| > 0 && NulFree(r[j])
  {
    ParseItems(Slice(data, ENV_OFFSET + 4, ENV_OFFSET + ENV_SIZE))
  }

  /** The new payload: the rewritten items joined by NUL, then two NULs. */
  function NewPayload(items: seq<seq<byte>>, mac: seq<byte>): seq<byte>
  {
    Join(RewriteEthaddr(items, mac), NUL) + [NUL, NUL]
  }

  /** Re-encodes the environment of `data` with the new MAC text and writes it over `[0xD0000, 0xD1000)`. */
  function RewriteEnv(data: seq<byte>, mac: seq<byte>): seq<byte>
  {
    Assign(data, ENV_OFFSET, ENV_OFFSET + ENV_SIZE, Block(NewPayload(EnvItems(data), mac), ENV_SIZE))
  }

  /**
   The whole transformation of `create_custom_firmware`, failing where Python
   raises. The script also encodes the MAC text as ASCII; text that parsed as
   hex is ASCII (`MacTextAscii`), so that encode never fails.
   */
  function CreateCustomFirmware(data: seq<byte>, macText: string, sn: string): (r: Result<seq<byte>, Failure>)
    ensures ParseMac(macText).None? ==> r == Err(BadMacText)
    ensures ParseMac(macText).Some? && |ParseMac(macText).value| == 6 && |data| <= VENDOR_OFFSET + 6
            ==> r == Err(ChecksumPastEnd)
    ensures ParseMac(macText).Some? && |ParseMac(macText).value| == 6 && VENDOR_OFFSET + 6 < |data|
            && Ascii(VendorString(sn)).None?
            ==> r == Err(NonAsciiSerial)
    ensures ParseMac(macText).Some? && |ParseMac(macText).value| == 6 && VENDOR_OFFSET + 6 < |data|
            && Ascii(VendorString(sn)).Some?
            ==> r.Ok?
  {
    match ParseMac(macText)
    case None => Err(BadMacText)
    case Some(mac) =>
      MacTextAscii(macText);
      match PatchMac(data, VENDOR_OFFSET, mac)
      case None => Err(ChecksumPastEnd)
      case Some(d1) =>
        match Ascii(VendorString(sn))
        case None => Err(NonAsciiSerial)
        case Some(vs) => Ok(RewriteEnv(WriteSlot(d1, SN_OFFSET, vs), Ascii(macText).value))
  }

  /**
   The new environment block reads back as the rewritten item list, and its
   first word is the CRC-32 of the 0xFFC bytes after it.
   */
  lemma NewBlockReadsBack(items: seq<seq<byte>>, mac: seq<byte>)
    requires forall j :: 0 <= j < |items| ==> |items[j]| > 0 && NulFree(items[j])
    requires NulFree(mac)
    requires |NewPayload(items, mac)| <= ENV_SIZE - 4
    ensures var b := Block(NewPayload(items, mac), ENV_SIZE);
            && |b| == ENV_SIZE
            && ParseItems(b[4..]) == RewriteEthaddr(items, mac)
  {
    var r := RewriteEthaddr(items, mac);
    RewriteClean(items, mac);
    JoinTerminated(r);
    var p := NewPayload(items, mac);
    var b := Block(p, ENV_SIZE);
    var pad := b[4 + |p|..];
    var z := [NUL] + pad;
    assert p == Terminated(r) + [NUL] by {
      AppendAssoc(Join(r, NUL), [NUL], [NUL]);
    }
    assert b[4..] == p + pad by {
      assert b[4..] == b[4..4 + |p|] + b[4 + |p|..];
    }
    AppendAssoc(Terminated(r), [NUL], pad);
    ParseTerminated(r, z);
  }

  /** The vendor writes keep the length, place the record, and touch nothing else. */
  lemma VendorStage(data: seq<byte>, mac: seq<byte>, vs: seq<byte>)
    requires |mac| == 6 && |vs| <= SLOT_SIZE
    requires SN_OFFSET + SLOT_SIZE <= |data|
    ensures PatchMac(data, VENDOR_OFFSET, mac).Some?
    ensures var d := WriteSlot(PatchMac(data, VENDOR_OFFSET, mac).value, SN_OFFSET, vs);
            && |d| == |data|
            && d[VENDOR_OFFSET..VENDOR_OFFSET + 6] == mac
            && d[VENDOR_OFFSET + 6] == MacChecksum(mac)
            && d[SN_OFFSET..SN_OFFSET + |vs|] == vs
            && (forall i :: SN_OFFSET + |vs| <= i < SN_OFFSET + SLOT_SIZE ==> d[i] == 0)
            && (forall i :: 0 <= i < |data|
                  && !(VENDOR_OFFSET <= i < VENDOR_OFFSET + 7)
                  && !(SN_OFFSET <= i < SN_OFFSET + SLOT_SIZE)
                  ==> d[i] == data[i])
  {
    var d1 := PatchMac(data, VENDOR_OFFSET, mac).value;
    var d := WriteSlot(d1, SN_OFFSET, vs);
    assert Max(SLOT_SIZE, |vs|) == SLOT_SIZE;
    forall i | VENDOR_OFFSET <= i < VENDOR_OFFSET + 6
      ensures d[i] == mac[i - VENDOR_OFFSET]
    {
      assert d[i] == d1[i] == d1[VENDOR_OFFSET..VENDOR_OFFSET + 6][i - VENDOR_OFFSET];
    }
  }

  /** The environment write keeps the length, re-encodes the region in place, and touches nothing else. */
  lemma EnvStage(d: seq<byte>, mac: seq<byte>)
    requires ENV_OFFSET + ENV_SIZE <= |d|
    requires NulFree(mac)
    requires |NewPayload(EnvItems(d), mac)| <= ENV_SIZE - 4
    ensures var img := RewriteEnv(d, mac);
            && |img| == |d|
            && UnpackLE32(img[ENV_OFFSET..ENV_OFFSET + 4]) == Crc32.Crc(img[ENV_OFFSET + 4..ENV_OFFSET + ENV_SIZE])
            && EnvItems(img) == RewriteEthaddr(EnvItems(d), mac)
            && (forall i :: 0 <= i < |d| && !(ENV_OFFSET <= i < ENV_OFFSET + ENV_SIZE) ==> img[i] == d[i])
  {
    NewBlockReadsBack(EnvItems(d), mac);
    var block := Block(NewPayload(EnvItems(d), mac), ENV_SIZE);
    var img := RewriteEnv(d, mac);
    assert img == Splice(d, ENV_OFFSET, block);
    SpliceOutside(d, ENV_OFFSET, block);
    assert img[ENV_OFFSET..ENV_OFFSET + ENV_SIZE] == block;
    assert img[ENV_OFFSET..ENV_OFFSET + 4] == block[..4];
    assert img[ENV_OFFSET + 4..ENV_OFFSET + ENV_SIZE] == block[4..];
  }

  /**
   A new payload longer than 0xFFC bytes is not truncated: the slice
   assignment puts the whole longer block at 0xD0000, so the image grows by
   the excess and every byte from 0xD1000 on, the vendor record included,
   moves up by it.
   */
  lemma RewriteEnvOverflow(d: seq<byte>, mac: seq<byte>)
    requires ENV_OFFSET + ENV_SIZE <= |d|
    requires ENV_SIZE - 4 < |NewPayload(EnvItems(d), mac)|
    ensures var img := RewriteEnv(d, mac);
            var p := NewPayload(EnvItems(d), mac);
            var excess := |p| + 4 - ENV_SIZE;
            && |img| == |d| + excess
            && img[..ENV_OFFSET] == d[..ENV_OFFSET]
            && img[ENV_OFFSET + 4..ENV_OFFSET + 4 + |p|] == p
            && UnpackLE32(img[ENV_OFFSET..ENV_OFFSET + 4]) == Crc32.Crc(p)
            && img[ENV_OFFSET + ENV_SIZE + excess..] == d[ENV_OFFSET + ENV_SIZE..]
  {
    var p := NewPayload(EnvItems(d), mac);
    var block := Block(p, ENV_SIZE);
    var img := RewriteEnv(d, mac);
    assert block[4..] == p;
    assert img[ENV_OFFSET..ENV_OFFSET + |block|] == block;
    assert img[ENV_OFFSET..ENV_OFFSET + 4] == block[..4];
    assert img[ENV_OFFSET + 4..ENV_OFFSET + 4 + |p|] == block[4..];
  }

  /** On the success path the script is the vendor writes followed by the environment rewrite. */
  lemma SuccessPath(data: seq<byte>, macText: string, sn: string,
                    mac: seq<byte>, macBytes: seq<byte>, vs: seq<byte>)
    requires ParseMac(macText) == Some(mac) && |mac| == 6
    requires Ascii(macText) == Some(macBytes)
    requires Ascii(VendorString(sn)) == Some(vs) && |vs| <= SLOT_SIZE
    requires SN_OFFSET + SLOT_SIZE <= |data|
    ensures PatchMac(data, VENDOR_OFFSET, mac).Some?
    ensures CreateCustomFirmware(data, macText, sn)
            == Ok(RewriteEnv(WriteSlot(PatchMac(data, VENDOR_OFFSET, mac).value, SN_OFFSET, vs), macBytes))
  {
    VendorStage(data, mac, vs);
  }

  /** The vendor record in `img`: MAC, checksum byte, vendor string, and zeros to the end of the slot. */
  ghost predicate VendorPatched(img: seq<byte>, mac: seq<byte>, vs: seq<byte>)
    requires |mac| == 6 && |vs| <= SLOT_SIZE && SN_OFFSET + SLOT_SIZE <= |img|
  {
    && img[VENDOR_OFFSET..VENDOR_OFFSET + 6] == mac
    && img[VENDOR_OFFSET + 6] == MacChecksum(mac)
    && img[SN_OFFSET..SN_OFFSET + |vs|] == vs
    && (forall i :: SN_OFFSET + |vs| <= i < SN_OFFSET + SLOT_SIZE ==> img[i] == 0)
  }

  /** The environment of `img`: a valid CRC over the old items of `data` with `ethaddr` rewritten. */
  ghost predicate EnvPatched(data: seq<byte>, img: seq<byte>, macBytes: seq<byte>)
    requires ENV_OFFSET + ENV_SIZE <= |img|
  {
    && UnpackLE32(img[ENV_OFFSET..ENV_OFFSET + 4]) == Crc32.Crc(img[ENV_OFFSET + 4..ENV_OFFSET + ENV_SIZE])
    && EnvItems(img) == RewriteEthaddr(EnvItems(data), macBytes)
  }

  /** Every byte outside the vendor record, the slot and the environment is as it was. */
  ghost predicate KeptElsewhere(data: seq<byte>, img: seq<byte>)
  {
    && |img| == |data|
    && (forall i :: 0 <= i < |data|
          && !(VENDOR_OFFSET <= i < VENDOR_OFFSET + 7)
          && !(SN_OFFSET <= i < SN_OFFSET + SLOT_SIZE)
          && !(ENV_OFFSET <= i < ENV_OFFSET + ENV_SIZE)
          ==> img[i] == data[i])
  }

  /**
   What a successful run leaves in `img`, for an input `data`: same length;
   MAC, checksum byte, vendor string and the zeroed rest of the slot in place;
   the environment holding the old items with `ethaddr` rewritten under a
   valid CRC; and every other byte as it was.
   */
  ghost predicate Patched(data: seq<byte>, img: seq<byte>, mac: seq<byte>, macBytes: seq<byte>, vs: seq<byte>)
    requires |mac| == 6 && |vs| <= SLOT_SIZE && SN_OFFSET + SLOT_SIZE <= |data|
  {
    && KeptElsewhere(data, img)
    && VendorPatched(img, mac, vs)
    && EnvPatched(data, img, macBytes)
  }

  /** The environment write lies below the vendor area, so it leaves the vendor record as it was. */
  lemma VendorSurvives(d: seq<byte>, img: seq<byte>, mac: seq<byte>, vs: seq<byte>)
    requires |mac| == 6 && |vs| <= SLOT_SIZE && SN_OFFSET + SLOT_SIZE <= |d|
    requires |img| == |d|
    requires forall i :: 0 <= i < |d| && !(ENV_OFFSET <= i < ENV_OFFSET + ENV_SIZE) ==> img[i] == d[i]
    requires VendorPatched(d, mac, vs)
    ensures VendorPatched(img, mac, vs)
  {
    assert img[VENDOR_OFFSET..VENDOR_OFFSET + 6] == d[VENDOR_OFFSET..VENDOR_OFFSET + 6];
    assert img[SN_OFFSET..SN_OFFSET + |vs|] == d[SN_OFFSET..SN_OFFSET + |vs|];
  }

  lemma StagesPatch(data: seq<byte>, mac: seq<byte>, macBytes: seq<byte>, vs: seq<byte>)
    requires |mac| == 6 && |vs| <= SLOT_SIZE && SN_OFFSET + SLOT_SIZE <= |data|
    requires NulFree(macBytes)
    requires |NewPayload(EnvItems(data), macBytes)| <= ENV_SIZE - 4
    ensures PatchMac(data, VENDOR_OFFSET, mac).Some?
    ensures Patched(data, RewriteEnv(WriteSlot(PatchMac(data, VENDOR_OFFSET, mac).value, SN_OFFSET, vs), macBytes),
                    mac, macBytes, vs)
  {
    VendorStage(data, mac, vs);
    var d := WriteSlot(PatchMac(data, VENDOR_OFFSET, mac).value, SN_OFFSET, vs);
    assert VendorPatched(d, mac, vs);
    assert EnvItems(d) == EnvItems(data) by {
      assert Slice(d, ENV_OFFSET + 4, ENV_OFFSET + ENV_SIZE) == Slice(data, ENV_OFFSET + 4, ENV_OFFSET + ENV_SIZE);
    }
    EnvStage(d, macBytes);
    var img := RewriteEnv(d, macBytes);
    VendorSurvives(d, img, mac, vs);
    assert EnvPatched(data, img, macBytes);
    assert KeptElsewhere(data, img);
  }

  /**
   With a six-byte MAC, an image long enough to hold the serial slot, a vendor
   string of at most 128 bytes and a new environment that fits, the script
   succeeds and leaves the image `Patched`.
   */
  lemma CreateCustomFirmwareSpec(data: seq<byte>, macText: string, sn: string,
                                 mac: seq<byte>, macBytes: seq<byte>, vs: seq<byte>)
    requires ParseMac(macText) == Some(mac) && |mac| == 6
    requires Ascii(macText) == Some(macBytes)
    requires Ascii(VendorString(sn)) == Some(vs) && |vs| <= SLOT_SIZE
    requires SN_OFFSET + SLOT_SIZE <= |data|
    requires |NewPayload(EnvItems(data), macBytes)| <= ENV_SIZE - 4
    ensures CreateCustomFirmware(data, macText, sn).Ok?
    ensures Patched(data, CreateCustomFirmware(data, macText, sn).value, mac, macBytes, vs)
  {
    SuccessPath(data, macText, sn, mac, macBytes, vs);
    MacTextAscii(macText);
    StagesPatch(data, mac, macBytes, vs);
  }
}

=== FILE: envblock.dfy ===
/**
 The U-Boot environment block as the scripts build it: every entry becomes
 `key=value` followed by a NUL, one more NUL ends the list, the payload is
 right-padded with zeros to `size - 4` bytes, and the CRC-32 of the padded
 bytes is stored in front of them as a little-endian word.
 The parse step of custom_identity.py (split on NUL, drop empty items) and the
 `ethaddr=` rewrite are here too, together with a decoder used only to state
 the round trip.
 */
module EnvBlock {
  import opened Bytes
  import opened Wrappers
  import Crc32

  const EQ: byte := 0x3D

  /** The `ethaddr=` prefix that custom_identity.py looks for. */
  const ETHADDR_EQ: seq<byte> := [0x65, 0x74, 0x68, 0x61, 0x64, 0x64, 0x72, 0x3D]

  datatype Entry = Entry(key: seq<byte>, value: seq<byte>)

  predicate NulFree(s: seq<byte>)
  {
    forall i :: 0 <= i < |s| ==> s[i] != NUL
  }

  /** Keys hold neither `=` nor NUL and values hold no NUL: such entries survive a round trip. */
  predicate WellFormed(entries: seq<Entry>)
  {
    forall i :: 0 <= i < |entries| ==>
      NulFree(entries[i].key) && NulFree(entries[i].value) && EQ !in entries[i].key
  }

  /** Printable ASCII text, as every literal of the scripts is. */
  predicate Printable(s: string)
  {
    forall i :: 0 <= i < |s| ==> ' ' <= s[i] <= '~'
  }

  lemma TextOk(s: string)
    requires Printable(s)
    ensures NulFree(OfString(s))
  {
  }

  /** A literal key name: printable and without `=`. */
  lemma NameOk(s: string)
    requires Printable(s) && '=' !in s
    ensures NulFree(OfString(s)) && EQ !in OfString(s)
  {
    var b := OfString(s);
    forall i | 0 <= i < |b|
      ensures b[i] != EQ
    {
      assert s[i] != '=';
    }
  }

  function Item(e: Entry): seq<byte>
  {
    e.key + [EQ] + e.value
  }

  /** A literal key's item is the literal `name=` followed by the value. */
  lemma ItemText(name: string, v: seq<byte>)
    ensures Item(Entry(OfString(name), v)) == OfString(name + "=") + v
  {
    assert OfString(name + "=") == OfString(name) + [EQ];
  }

  function Items(entries: seq<Entry>): (r: seq<seq<byte>>)
    ensures |r| == |entries|
    ensures forall i :: 0 <= i < |entries| ==> r[i] == Item(entries[i])
  {
    seq(|entries|, i requires 0 <= i < |entries| => Item(entries[i]))
  }

  /** Every item followed by its own NUL, in order. */
  function Terminated(items: seq<seq<byte>>): seq<byte>
    decreases |items|
  {
    if |items| == 0 then [] else items[0] + [NUL] + Terminated(items[1..])
  }

  /** Python `bytes([sep]).join(items)`. */
  function Join(items: seq<seq<byte>>, sep: byte): seq<byte>
    decreases |items|
  {
    if |items| == 0 then []
    else if |items| == 1 then items[0]
    else items[0] + [sep] + Join(items[1..], sep)
  }

  /**
   The payload the dictionary loop of the scripts builds: `key=value` and a NUL
   per entry in insertion order, then the extra terminating NUL.
   */
  function Payload(entries: seq<Entry>): (r: seq<byte>)
    ensures 1 <= |r| && r[|r| - 1] == NUL
  {
    Terminated(Items(entries)) + [NUL]
  }

  /**
   The stored block: the payload padded (never truncated) to `size - 4` bytes,
   preceded by the little-endian CRC-32 of exactly those padded bytes.
   */
  function Block(payload: seq<byte>, size: nat): (r: seq<byte>)
    requires 4 <= size
    ensures |r| == 4 + Max(|payload|, size - 4)
    ensures |r| == size <==> |payload| <= size - 4
    ensures UnpackLE32(r[..4]) == Crc32.Crc(r[4..])
    ensures r[4..4 + |payload|] == payload
    ensures AllZero(r[4 + |payload|..])
  {
    var padded := LJust(payload, size - 4);
    var r := PackLE32(Crc32.Crc(padded)) + padded;
    assert r[..4] == PackLE32(Crc32.Crc(padded));
    assert r[4..] == padded;
    UnpackPack(Crc32.Crc(padded));
    r
  }

  /** The encoder shared by hybrid_ultimate.py, key_fix.py and fix_firmware.py. */
  function EncodeEnv(entries: seq<Entry>, size: nat): seq<byte>
    requires 4 <= size
  {
    Block(Payload(entries), size)
  }

  /**
   Python `data[off:off+size] = block` with the encoded block. When the region
   lies inside the image, the block replaces it: in place when the payload
   fits, and otherwise the image grows by the excess while every byte after
   the region moves up. An image that ends inside the region loses its tail
   from `off` and ends with the block; one that ends before `off` gets the
   block appended, with no gap.
   */
  function InstallEnv(data: seq<byte>, off: nat, entries: seq<Entry>, size: nat): (r: seq<byte>)
    requires 4 <= size
    ensures off + size <= |data| && |Payload(entries)| <= size - 4 ==>
              && |r| == |data|
              && r[off..off + size] == EncodeEnv(entries, size)
              && UnpackLE32(r[off..off + 4]) == Crc32.Crc(r[off + 4..off + size])
              && (forall i :: 0 <= i < |data| && !(off <= i < off + size) ==> r[i] == data[i])
    ensures off + size <= |data| && size - 4 < |Payload(entries)| ==>
              && |r| == |data| + (|Payload(entries)| + 4 - size)
              && r[..off] == data[..off]
              && r[off..off + 4 + |Payload(entries)|] == EncodeEnv(entries, size)
              && r[off + 4 + |Payload(entries)|..] == data[off + size..]
    ensures off <= |data| < off + size ==> r == data[..off] + EncodeEnv(entries, size)
    ensures |data| < off ==> r == data + EncodeEnv(entries, size)
  {
    var block := EncodeEnv(entries, size);
    var r := Assign(data, off, off + size, block);
    if off + size <= |data| && |Payload(entries)| <= size - 4 then
      BlockInPlace(data, off, block);
      r
    else
      assert off + size <= |data| && size - 4 < |Payload(entries)| ==> |block| == 4 + |Payload(entries)|;
      r
  }

  /**
   Where the block lands whatever the image length: at `off`, or at the end of
   an image shorter than `off`. With a payload that fits, the block is exactly
   `size` bytes there, everything before it is the image's, and every byte of
   the image outside `[off, off + size)` is kept.
   */
  lemma InstallEnvAt(data: seq<byte>, off: nat, entries: seq<Entry>, size: nat)
    requires 4 <= size
    requires |Payload(entries)| <= size - 4
    ensures var r := InstallEnv(data, off, entries, size);
            var at := Min(|data|, off);
            && |r| == Max(|data|, at + size)
            && r[..at] == data[..at]
            && r[at..at + size] == EncodeEnv(entries, size)
            && (forall i :: 0 <= i < |data| && !(off <= i < off + size) ==> r[i] == data[i])
  {
    var r := InstallEnv(data, off, entries, size);
    var block := EncodeEnv(entries, size);
    var at := Min(|data|, off);
    if off + size <= |data| {
      assert r[..at] == r[..off];
      assert data[..at] == data[..off];
      forall i | 0 <= i < off
        ensures r[..off][i] == data[..off][i]
      {
      }
    } else {
      assert r == data[..at] + block;
      forall i | 0 <= i < |data| && !(off <= i < off + size)
        ensures r[i] == data[i]
      {
        assert r[i] == data[..at][i];
      }
    }
  }

  /** A block of at least four bytes found at `at` carries its CRC word there. */
  lemma CrcWordAt(r: seq<byte>, at: nat, block: seq<byte>)
    requires 4 <= |block| && at + |block| <= |r|
    requires r[at..at + |block|] == block
    requires UnpackLE32(block[..4]) == Crc32.Crc(block[4..])
    ensures UnpackLE32(r[at..at + 4]) == Crc32.Crc(r[at + 4..at + |block|])
  {
    assert r[at..at + 4] == block[..4];
    assert r[at + 4..at + |block|] == block[4..];
  }

  /** Assigning a block to a range of its own length inside the image overwrites that range in place. */
  lemma BlockInPlace(data: seq<byte>, off: nat, block: seq<byte>)
    requires 4 <= |block| && off + |block| <= |data|
    ensures var r := Assign(data, off, off + |block|, block);
            && |r| == |data|
            && r[off..off + |block|] == block
            && r[off..off + 4] == block[..4]
            && r[off + 4..off + |block|] == block[4..]
            && (forall i :: 0 <= i < |data| && !(off <= i < off + |block|) ==> r[i] == data[i])
  {
    var r := Assign(data, off, off + |block|, block);
    assert r == Splice(data, off, block);
    SpliceOutside(data, off, block);
    assert r[off..off + |block|][..4] == r[off..off + 4];
    assert r[off..off + |block|][4..] == r[off + 4..off + |block|];
  }

  /** Encoding is deterministic and the payload occupies the front of the block, zeros after it. */
  lemma EncodeEnvLayout(entries: seq<Entry>, size: nat)
    requires 4 <= size
    ensures var r := EncodeEnv(entries, size);
            && (|r| == size <==> |Payload(entries)| <= size - 4)
            && UnpackLE32(r[..4]) == Crc32.Crc(r[4..])
            && r[4..4 + |Payload(entries)|] == Payload(entries)
            && AllZero(r[4 + |Payload(entries)|..])
  {
  }

  /** The payload lists the first entry's `key=value` and NUL before everything else. */
  lemma PayloadCons(e: Entry, rest: seq<Entry>)
    ensures Payload([e] + rest) == Item(e) + [NUL] + Payload(rest)
  {
    assert Items([e] + rest) == [Item(e)] + Items(rest);
    assert Items([e] + rest)[1..] == Items(rest);
  }

  /** The payload of a list with two leading entries: their items come first, each NUL-terminated. */
  lemma PayloadCons2(e0: Entry, e1: Entry, rest: seq<Entry>)
    ensures Payload([e0, e1] + rest) == Item(e0) + [NUL] + Item(e1) + [NUL] + Payload(rest)
  {
    PayloadCons(e0, [e1] + rest);
    PayloadCons(e1, rest);
    assert [e0] + ([e1] + rest) == [e0, e1] + rest;
  }

  /** The payload of a list of two or more entries opens with the first two items, each NUL-terminated. */
  lemma PayloadHead2(es: seq<Entry>)
    requires 2 <= |es|
    ensures StartsWith(Payload(es), Item(es[0]) + [NUL] + Item(es[1]) + [NUL])
  {
    var head := Item(es[0]) + [NUL] + Item(es[1]) + [NUL];
    var rest := Payload(es[2..]);
    assert es == [es[0], es[1]] + es[2..];
    PayloadCons2(es[0], es[1], es[2..]);
    assert Payload(es) == head + rest;
    assert (head + rest)[..|head|] == head;
  }

  /** The payload of three entries, spelled out. */
  lemma PayloadOf3(e0: Entry, e1: Entry, e2: Entry)
    ensures Payload([e0, e1, e2]) == Item(e0) + [NUL] + Item(e1) + [NUL] + Item(e2) + [NUL, NUL]
  {
    PayloadCons(e0, [e1, e2]);
    PayloadCons(e1, [e2]);
    PayloadCons(e2, []);
    assert [e0] + [e1, e2] == [e0, e1, e2];
    assert [e1] + [e2] == [e1, e2];
    assert [e2] + [] == [e2];
    assert Payload([]) == [NUL];
  }

  /** The joined form custom_identity.py uses equals the loop form of the other scripts. */
  lemma {:induction false} JoinTerminated(items: seq<seq<byte>>)
    requires |items| > 0
    ensures Join(items, NUL) + [NUL] == Terminated(items)
    decreases |items|
  {
    if |items| == 1 {
      assert Terminated(items[1..]) == [];
    } else {
      JoinTerminated(items[1..]);
    }
  }

  // ---------------------------------------------------------------------------
  // Parsing: Python `bytes.split(b'\0')` followed by dropping empty items.

  /** Python `s.split(b'\0')`: the maximal NUL-free runs, always at least one. */
  function Split(s: seq<byte>): (r: seq<seq<byte>>)
    ensures |r| >= 1
    decreases |s|
  {
    if |s| == 0 then [[]]
    else if s[0] == NUL then [[]] + Split(s[1..])
    else var rest := Split(s[1..]); [[s[0]] + rest[0]] + rest[1..]
  }

  function DropEmpty(xs: seq<seq<byte>>): (r: seq<seq<byte>>)
    decreases |xs|
  {
    if |xs| == 0 then []
    else (if |xs[0]| == 0 then [] else [xs[0]]) + DropEmpty(xs[1..])
  }

  /** The item list custom_identity.py reads out of an environment region. */
  function ParseItems(region: seq<byte>): (r: seq<seq<byte>>)
    ensures forall j :: 0 <= j < |r| ==> |r[j]| > 0 && NulFree(r[j])
  {
    var pieces := Split(region);
    SplitNulFree(region);
    DropEmptyMembers(pieces);
    var r := DropEmpty(pieces);
    assert forall j :: 0 <= j < |r| ==> NulFree(r[j]) by {
      forall j | 0 <= j < |r|
        ensures NulFree(r[j])
      {
        var k :| 0 <= k < |pieces| && pieces[k] == r[j];
      }
    }
    r
  }

  /** Joining the pieces of a split gives back the original bytes. */
  lemma {:induction false} JoinSplit(s: seq<byte>)
    ensures Join(Split(s), NUL) == s
    decreases |s|
  {
    if |s| == 0 {
    } else if s[0] == NUL {
      JoinSplit(s[1..]);
    } else {
      var rest := Split(s[1..]);
      JoinSplit(s[1..]);
      if |rest| > 1 {
        assert Join(rest, NUL) == rest[0] + [NUL] + Join(rest[1..], NUL);
        assert ([[s[0]] + rest[0]] + rest[1..])[1..] == rest[1..];
      }
    }
  }

  /** No piece of a split contains the separator. */
  lemma {:induction false} SplitNulFree(s: seq<byte>)
    ensures forall j :: 0 <= j < |Split(s)| ==> NulFree(Split(s)[j])
    decreases |s|
  {
    if |s| > 0 {
      SplitNulFree(s[1..]);
    }
  }

  lemma {:induction false} SplitPrefix(x: seq<byte>, y: seq<byte>)
    requires NulFree(x)
    ensures Split(x + [NUL] + y) == [x] + Split(y)
    decreases |x|
  {
    var s := x + [NUL] + y;
    if |x| == 0 {
      assert s[1..] == y;
    } else {
      assert s[1..] == x[1..] + [NUL] + y;
      SplitPrefix(x[1..], y);
      assert [x[0]] + x[1..] == x;
    }
  }

  /** Terminating a non-empty list then appending `z`: the first item, a NUL, then the rest terminated and `z`. */
  lemma TerminatedAppend(items: seq<seq<byte>>, z: seq<byte>)
    requires |items| > 0
    ensures Terminated(items) + z == items[0] + [NUL] + (Terminated(items[1..]) + z)
  {
    var a := items[0] + [NUL];
    var rest := Terminated(items[1..]);
    assert Terminated(items) == a + rest;
    AppendAssoc(a, rest, z);
  }

  lemma {:induction false} SplitTerminated(items: seq<seq<byte>>, z: seq<byte>)
    requires forall j :: 0 <= j < |items| ==> NulFree(items[j])
    ensures Split(Terminated(items) + z) == items + Split(z)
    decreases |items|
  {
    if |items| == 0 {
      assert Terminated(items) + z == z;
    } else {
      var tail := items[1..];
      var t := Terminated(tail) + z;
      TerminatedAppend(items, z);
      SplitPrefix(items[0], t);
      assert forall j :: 0 <= j < |tail| ==> NulFree(tail[j]) by {
        forall j | 0 <= j < |tail|
          ensures NulFree(tail[j])
        {
          assert tail[j] == items[j + 1];
        }
      }
      SplitTerminated(tail, z);
      AppendAssoc([items[0]], tail, Split(z));
      assert [items[0]] + tail == items;
    }
  }

  lemma {:induction false} DropEmptyAppend(a: seq<seq<byte>>, b: seq<seq<byte>>)
    ensures DropEmpty(a + b) == DropEmpty(a) + DropEmpty(b)
    decreases |a|
  {
    if |a| == 0 {
      assert a + b == b;
    } else {
      assert (a + b)[1..] == a[1..] + b;
      DropEmptyAppend(a[1..], b);
    }
  }

  lemma {:induction false} DropEmptyKeeps(xs: seq<seq<byte>>)
    requires forall j :: 0 <= j < |xs| ==> |xs[j]| > 0
    ensures DropEmpty(xs) == xs
    decreases |xs|
  {
    if |xs| > 0 {
      DropEmptyKeeps(xs[1..]);
    }
  }

  lemma {:induction false} ParseZeros(z: seq<byte>)
    requires AllZero(z)
    ensures ParseItems(z) == []
    decreases |z|
  {
    if |z| > 0 {
      assert AllZero(z[1..]);
      ParseZeros(z[1..]);
    }
  }

  /**
   Reading back a NUL-terminated list that is followed only by zero bytes
   yields the list again, provided every item is non-empty and NUL-free.
   */
  lemma ParseTerminated(items: seq<seq<byte>>, z: seq<byte>)
    requires forall j :: 0 <= j < |items| ==> NulFree(items[j]) && |items[j]| > 0
    requires AllZero(z)
    ensures ParseItems(Terminated(items) + z) == items
  {
    SplitTerminated(items, z);
    DropEmptyAppend(items, Split(z));
    DropEmptyKeeps(items);
    ParseZeros(z);
  }

  /** DropEmpty keeps only non-empty members, each one a member of its input. */
  lemma {:induction false} DropEmptyMembers(xs: seq<seq<byte>>)
    ensures forall j :: 0 <= j < |DropEmpty(xs)| ==> |DropEmpty(xs)[j]| > 0 && DropEmpty(xs)[j] in xs
    decreases |xs|
  {
    if |xs| > 0 {
      DropEmptyMembers(xs[1..]);
      var head := if |xs[0]| == 0 then [] else [xs[0]];
      assert DropEmpty(xs) == head + DropEmpty(xs[1..]);
      forall j | 0 <= j < |DropEmpty(xs)|
        ensures DropEmpty(xs)[j] in xs
      {
        if j >= |head| {
          assert DropEmpty(xs)[j] == DropEmpty(xs[1..])[j - |head|];
          assert DropEmpty(xs[1..])[j - |head|] in xs[1..];
        }
      }
    }
  }

  // ---------------------------------------------------------------------------
  // Decoding entries, used to state the round trip of the encoder.

  /** Splits an item at its first `=`. */
  function DecodeItem(item: seq<byte>): Option<Entry>
  {
    var i := IndexOf(item, [EQ], 0);
    if i < 0 then None else Some(Entry(item[..i], item[i + 1..]))
  }

  function DecodeItems(items: seq<seq<byte>>): Option<seq<Entry>>
    decreases |items|
  {
    if |items| == 0 then Some([])
    else match (DecodeItem(items[0]), DecodeItems(items[1..]))
      case (Some(e), Some(es)) => Some([e] + es)
      case _ => None
  }

  /**
   Reads a stored block of `size` bytes: fails unless the length is right and
   the stored word is the CRC of the rest; otherwise parses the entries.
   */
  function DecodeEnv(block: seq<byte>, size: nat): (r: Option<seq<Entry>>)
    ensures r.Some? ==> 4 <= size && |block| == size && UnpackLE32(block[..4]) == Crc32.Crc(block[4..])
  {
    if size < 4 || |block| != size then None
    else if UnpackLE32(block[..4]) != Crc32.Crc(block[4..]) then None
    else DecodeItems(ParseItems(block[4..]))
  }

  lemma DecodeItemOf(e: Entry)
    requires EQ !in e.key
    ensures DecodeItem(Item(e)) == Some(e)
  {
    var item := Item(e);
    IndexOfSpec(item, [EQ], 0);
    assert OccursAt(item, [EQ], |e.key|);
    forall i | 0 <= i < |e.key|
      ensures !OccursAt(item, [EQ], i)
    {
      assert item[i] == e.key[i];
    }
    assert item[..|e.key|] == e.key;
    assert item[|e.key| + 1..] == e.value;
  }

  lemma {:induction false} DecodeItemsOf(entries: seq<Entry>)
    requires WellFormed(entries)
    ensures DecodeItems(Items(entries)) == Some(entries)
    decreases |entries|
  {
    if |entries| > 0 {
      DecodeItemOf(entries[0]);
      assert Items(entries)[1..] == Items(entries[1..]);
      DecodeItemsOf(entries[1..]);
      assert [entries[0]] + entries[1..] == entries;
    }
  }

  lemma ItemsNulFree(entries: seq<Entry>)
    requires WellFormed(entries)
    ensures forall j :: 0 <= j < |entries| ==> NulFree(Items(entries)[j]) && |Items(entries)[j]| > 0
  {
    forall j | 0 <= j < |entries|
      ensures NulFree(Items(entries)[j])
    {
      var e := entries[j];
      assert Items(entries)[j] == e.key + [EQ] + e.value;
    }
  }

  /** Round trip: a block that fits decodes to exactly the entries it was built from. */
  lemma DecodeEncode(entries: seq<Entry>, size: nat)
    requires 4 <= size
    requires WellFormed(entries)
    requires |Payload(entries)| <= size - 4
    ensures DecodeEnv(EncodeEnv(entries, size), size) == Some(entries)
  {
    var r := EncodeEnv(entries, size);
    var p := Payload(entries);
    var body := r[4..];
    assert body == p + body[|p|..];
    assert body == Terminated(Items(entries)) + ([NUL] + body[|p|..]);
    assert AllZero([NUL] + body[|p|..]) by {
      assert body[|p|..] == r[4 + |p|..];
    }
    ItemsNulFree(entries);
    ParseTerminated(Items(entries), [NUL] + body[|p|..]);
    DecodeItemsOf(entries);
  }

  // ---------------------------------------------------------------------------
  // The `ethaddr=` rewrite of custom_identity.py.

  predicate IsEthaddr(item: seq<byte>)
  {
    StartsWith(item, ETHADDR_EQ)
  }

  function ReplaceEthaddr(items: seq<seq<byte>>, repl: seq<byte>): (r: seq<seq<byte>>)
    ensures |r| == |items|
    decreases |items|
  {
    if |items| == 0 then []
    else [if IsEthaddr(items[0]) then repl else items[0]] + ReplaceEthaddr(items[1..], repl)
  }

  predicate HasEthaddr(items: seq<seq<byte>>)
  {
    exists j :: 0 <= j < |items| && IsEthaddr(items[j])
  }

  /** Every `ethaddr=` item becomes `ethaddr=<mac>`; one is appended when none was present. */
  function RewriteEthaddr(items: seq<seq<byte>>, mac: seq<byte>): seq<seq<byte>>
  {
    var repl := ETHADDR_EQ + mac;
    if HasEthaddr(items) then ReplaceEthaddr(items, repl)
    else ReplaceEthaddr(items, repl) + [repl]
  }

  /** The items that are not `ethaddr=` ones, in order. */
  function Others(items: seq<seq<byte>>): seq<seq<byte>>
    decreases |items|
  {
    if |items| == 0 then []
    else (if IsEthaddr(items[0]) then [] else [items[0]]) + Others(items[1..])
  }

  lemma {:induction false} OthersAppend(a: seq<seq<byte>>, b: seq<seq<byte>>)
    ensures Others(a + b) == Others(a) + Others(b)
    decreases |a|
  {
    if |a| == 0 {
      assert a + b == b;
    } else {
      assert (a + b)[1..] == a[1..] + b;
      OthersAppend(a[1..], b);
    }
  }

  lemma {:induction false} ReplaceKeepsOthers(items: seq<seq<byte>>, repl: seq<byte>)
    requires IsEthaddr(repl)
    ensures Others(ReplaceEthaddr(items, repl)) == Others(items)
    ensures forall j :: 0 <= j < |items| ==>
              ReplaceEthaddr(items, repl)[j] == (if IsEthaddr(items[j]) then repl else items[j])
    decreases |items|
  {
    if |items| > 0 {
      ReplaceKeepsOthers(items[1..], repl);
    }
  }

  /** Rewriting a list of non-empty NUL-free items with a NUL-free MAC keeps them so. */
  lemma RewriteClean(items: seq<seq<byte>>, mac: seq<byte>)
    requires forall j :: 0 <= j < |items| ==> |items[j]| > 0 && NulFree(items[j])
    requires NulFree(mac)
    ensures var r := RewriteEthaddr(items, mac);
            |r| > 0 && forall j :: 0 <= j < |r| ==> |r[j]| > 0 && NulFree(r[j])
  {
    var repl := ETHADDR_EQ + mac;
    assert repl[..|ETHADDR_EQ|] == ETHADDR_EQ;
    ReplaceKeepsOthers(items, repl);
    assert NulFree(repl) by {
      forall i | 0 <= i < |repl|
        ensures repl[i] != NUL
      {
        if i >= |ETHADDR_EQ| {
          assert repl[i] == mac[i - |ETHADDR_EQ|];
        }
      }
    }
  }

  /** The replacement item is itself an `ethaddr=` item. */
  lemma ReplIsEthaddr(mac: seq<byte>)
    ensures IsEthaddr(ETHADDR_EQ + mac)
    ensures Others([ETHADDR_EQ + mac]) == []
  {
    assert (ETHADDR_EQ + mac)[..|ETHADDR_EQ|] == ETHADDR_EQ;
  }

  /** Pointwise, replacing leaves `ethaddr` items equal to the replacement and every other item alone. */
  lemma ReplacedItems(items: seq<seq<byte>>, repl: seq<byte>)
    requires IsEthaddr(repl)
    ensures var r := ReplaceEthaddr(items, repl);
            && (forall j :: 0 <= j < |r| && IsEthaddr(r[j]) ==> r[j] == repl)
            && (forall j :: 0 <= j < |items| && !IsEthaddr(items[j]) ==> r[j] == items[j])
  {
    ReplaceKeepsOthers(items, repl);
  }

  /** With an `ethaddr` item present the rewrite only replaces. */
  lemma RewritePresent(items: seq<seq<byte>>, mac: seq<byte>)
    requires HasEthaddr(items)
    ensures var r := RewriteEthaddr(items, mac);
            && Others(r) == Others(items)
            && |r| == |items|
            && ETHADDR_EQ + mac in r
            && (forall j :: 0 <= j < |r| && IsEthaddr(r[j]) ==> r[j] == ETHADDR_EQ + mac)
            && (forall j :: 0 <= j < |items| && !IsEthaddr(items[j]) ==> r[j] == items[j])
  {
    var repl := ETHADDR_EQ + mac;
    ReplIsEthaddr(mac);
    ReplaceKeepsOthers(items, repl);
    ReplacedItems(items, repl);
    var j :| 0 <= j < |items| && IsEthaddr(items[j]);
    assert ReplaceEthaddr(items, repl)[j] == repl;
  }

  /** With no `ethaddr` item the rewrite appends the new one. */
  lemma RewriteAbsent(items: seq<seq<byte>>, mac: seq<byte>)
    requires !HasEthaddr(items)
    ensures var r := RewriteEthaddr(items, mac);
            && Others(r) == Others(items)
            && |r| == |items| + 1
            && ETHADDR_EQ + mac in r
            && (forall j :: 0 <= j < |r| && IsEthaddr(r[j]) ==> r[j] == ETHADDR_EQ + mac)
            && (forall j :: 0 <= j < |items| && !IsEthaddr(items[j]) ==> r[j] == items[j])
  {
    var repl := ETHADDR_EQ + mac;
    ReplIsEthaddr(mac);
    ReplaceKeepsOthers(items, repl);
    ReplacedItems(items, repl);
    var replaced := ReplaceEthaddr(items, repl);
    OthersAppend(replaced, [repl]);
    var r := replaced + [repl];
    assert r[|items|] == repl;
    assert forall j :: 0 <= j < |items| ==> r[j] == replaced[j];
  }

  /**
   The rewrite keeps every other item in its order, leaves every `ethaddr=` item
   equal to the new one, and adds an item only when the list had none.
   */
  lemma RewriteEthaddrSpec(items: seq<seq<byte>>, mac: seq<byte>)
    ensures var r := RewriteEthaddr(items, mac);
            && Others(r) == Others(items)
            && |r| == |items| + (if HasEthaddr(items) then 0 else 1)
            && ETHADDR_EQ + mac in r
            && (forall j :: 0 <= j < |r| && IsEthaddr(r[j]) ==> r[j] == ETHADDR_EQ + mac)
            && (forall j :: 0 <= j < |items| && !IsEthaddr(items[j]) ==> r[j] == items[j])
  {
    if HasEthaddr(items) {
      RewritePresent(items, mac);
    } else {
      RewriteAbsent(items, mac);
    }
  }
}

=== FILE: fixfirmware.dfy ===
/**
 fix_firmware.py: a 64 KiB environment with boot arguments, a pre-boot
 command and the MAC address, written in place at 0xD0000. An image that is
 not 8 MiB only draws a warning.
 */
module FixFirmware {
  import opened Bytes
  import opened Wrappers
  import opened EnvBlock
  import opened Signatures
  import Crc32

  const ENV_OFFSET: nat := 0xD0000
  const ENV_SIZE: nat := 0x10000

  /** The output image and whether the size warning was printed. */
  datatype Fixed = Fixed(image: seq<byte>, sizeWarning: bool)

  /** The dictionary of the script in insertion order; its three values are opaque parameters. */
  function Entries(bootargs: seq<byte>, preboot: seq<byte>, mac: seq<byte>): (r: seq<Entry>)
    ensures |r| == 3
  {
    [ Entry(OfString("bootargs"), bootargs),
      Entry(OfString("preboot"), preboot),
      Entry(OfString("ethaddr"), mac) ]
  }

  /** The whole transformation of `final_fix`. */
  function FinalFix(data: seq<byte>, bootargs: seq<byte>, preboot: seq<byte>, mac: seq<byte>): (r: Fixed)
    ensures r.sizeWarning <==> |data| != FLASH_SIZE
  {
    Fixed(InstallEnv(data, ENV_OFFSET, Entries(bootargs, preboot, mac), ENV_SIZE), |data| != FLASH_SIZE)
  }

  /**
   The size check only warns, so every input length is processed. With a
   payload that fits, the block goes to 0xD0000, or to the end of an image
   shorter than that; an image that reaches 0xE0000 keeps its length and is
   changed only in `[0xD0000, 0xE0000)`, and a shorter one ends with the block.
   The stored word is the CRC-32 of the 0xFFFC bytes after it, and the entries
   come back in dictionary order.
   */
  lemma FinalFixSpec(data: seq<byte>, bootargs: seq<byte>, preboot: seq<byte>, mac: seq<byte>)
    requires |Payload(Entries(bootargs, preboot, mac))| <= ENV_SIZE - 4
    requires NulFree(bootargs) && NulFree(preboot) && NulFree(mac)
    ensures var r := FinalFix(data, bootargs, preboot, mac).image;
            var at := Min(|data|, ENV_OFFSET);
            && |r| == Max(|data|, at + ENV_SIZE)
            && r[..at] == data[..at]
            && (forall i :: 0 <= i < |data| && !(ENV_OFFSET <= i < ENV_OFFSET + ENV_SIZE) ==> r[i] == data[i])
            && UnpackLE32(r[at..at + 4]) == Crc32.Crc(r[at + 4..at + ENV_SIZE])
            && DecodeEnv(r[at..at + ENV_SIZE], ENV_SIZE) == Some(Entries(bootargs, preboot, mac))
  {
    var es := Entries(bootargs, preboot, mac);
    var r := FinalFix(data, bootargs, preboot, mac).image;
    var at := Min(|data|, ENV_OFFSET);
    EntriesWellFormed(bootargs, preboot, mac);
    InstallEnvAt(data, ENV_OFFSET, es, ENV_SIZE);
    DecodeEncode(es, ENV_SIZE);
    CrcWordAt(r, at, EncodeEnv(es, ENV_SIZE));
  }

  /** The three literal keys have no NUL and no `=`, so NUL-free values make a well-formed list. */
  lemma EntriesWellFormed(bootargs: seq<byte>, preboot: seq<byte>, mac: seq<byte>)
    requires NulFree(bootargs) && NulFree(preboot) && NulFree(mac)
    ensures WellFormed(Entries(bootargs, preboot, mac))
  {
    NameOk("bootargs");
    NameOk("preboot");
    NameOk("ethaddr");
  }

  /** The payload is the three `key=value` items, each NUL-terminated, then one more NUL. */
  lemma PayloadShape(bootargs: seq<byte>, preboot: seq<byte>, mac: seq<byte>)
    ensures Payload(Entries(bootargs, preboot, mac))
            == OfString("bootargs=") + bootargs + [NUL]
             + OfString("preboot=") + preboot + [NUL]
             + OfString("ethaddr=") + mac + [NUL, NUL]
  {
    var es := Entries(bootargs, preboot, mac);
    assert es == [es[0], es[1], es[2]];
    PayloadOf3(es[0], es[1], es[2]);
    ItemText("bootargs", bootargs);
    ItemText("preboot", preboot);
    ItemText("ethaddr", mac);
  }
}

=== FILE: hybrid.dfy ===
/**
 hybrid_ultimate.py: an 8 MiB image made of the U-Boot part of one image,
 the device tree and the kernel of another, and a fresh 4 KiB environment.
 */
module HybridUltimate {
  import opened Bytes
  import opened Wrappers
  import opened EnvBlock
  import opened Signatures
  import Crc32

  const UBOOT_END: nat := 0xD0000
  const DTB_SRC: nat := 0xB0750
  const DTB_SIZE: nat := 6914
  const DTB_DST: nat := 0xD1000
  const KERNEL_OFFSET: nat := 0xD5000
  const ENV_OFFSET: nat := 0xD0000
  const ENV_SIZE: nat := 0x1000

  /** The composed image and whether the device-tree magic warning was printed. */
  datatype Hybrid = Hybrid(image: seq<byte>, dtbWarning: bool)

  /** The first 0xD0000 bytes of the old image, zero-padded to the flash size. */
  function BaseImage(stock: seq<byte>): (r: seq<byte>)
    ensures |r| == FLASH_SIZE
    ensures r[..Min(|stock|, UBOOT_END)] == stock[..Min(|stock|, UBOOT_END)]
    ensures forall i :: Min(|stock|, UBOOT_END) <= i < FLASH_SIZE ==> r[i] == 0
  {
    var u := Slice(stock, 0, UBOOT_END);
    u + Zeros(FLASH_SIZE - |u|)
  }

  /** The dictionary of the script in insertion order; its values are opaque parameters. */
  function Entries(mac: seq<byte>, bootcmd: seq<byte>, bootargs: seq<byte>): seq<Entry>
  {
    [ Entry(OfString("ethaddr"), mac),
      Entry(OfString("bootcmd"), bootcmd),
      Entry(OfString("bootargs"), bootargs) ]
  }

  /** The device-tree slice taken from the newer image. */
  function Dtb(src: seq<byte>): (r: seq<byte>)
    ensures |r| <= DTB_SIZE
    ensures DTB_SRC + DTB_SIZE <= |src| ==> r == src[DTB_SRC..DTB_SRC + DTB_SIZE]
  {
    Slice(src, DTB_SRC, DTB_SRC + DTB_SIZE)
  }

  /** Everything of the newer image from the kernel offset to its end. */
  function Kernel(src: seq<byte>): (r: seq<byte>)
    ensures KERNEL_OFFSET <= |src| ==> r == src[KERNEL_OFFSET..]
    ensures |src| < KERNEL_OFFSET ==> r == []
  {
    Slice(src, KERNEL_OFFSET, |src|)
  }

  /**
   The whole transformation of `create_hybrid_firmware`. A device tree without
   its magic only raises the warning flag; the image is built the same way.
   */
  function CreateHybridFirmware(stock: seq<byte>, src: seq<byte>,
                                mac: seq<byte>, bootcmd: seq<byte>, bootargs: seq<byte>): (r: Hybrid)
    ensures r.dtbWarning <==> Dtb(src)[..Min(4, |Dtb(src)|)] != DTB_MAGIC
  {
    var image := InstallEnv(Composed(stock, src), ENV_OFFSET, Entries(mac, bootcmd, bootargs), ENV_SIZE);
    Hybrid(image, Slice(Dtb(src), 0, 4) != DTB_MAGIC)
  }

  /** The image before the environment is written: base, device tree, kernel. */
  function Composed(stock: seq<byte>, src: seq<byte>): seq<byte>
  {
    var dtb := Dtb(src);
    var h1 := Assign(BaseImage(stock), DTB_DST, DTB_DST + |dtb|, dtb);
    var kernel := Kernel(src);
    Assign(h1, KERNEL_OFFSET, KERNEL_OFFSET + |kernel|, kernel)
  }

  /**
   Layout of the composed image: 8 MiB unless the kernel tail runs past it
   (slice assignment then grows the buffer), the old U-Boot prefix, the device
   tree at 0xD1000, zeros up to the kernel at 0xD5000, and the kernel tail.
   */
  lemma ComposedLayout(stock: seq<byte>, src: seq<byte>)
    ensures var h := Composed(stock, src);
            var dtb := Dtb(src);
            var kernel := Kernel(src);
            && |h| == Max(FLASH_SIZE, |src|)
            && h[..Min(|stock|, UBOOT_END)] == stock[..Min(|stock|, UBOOT_END)]
            && (forall i :: Min(|stock|, UBOOT_END) <= i < DTB_DST ==> h[i] == 0)
            && h[DTB_DST..DTB_DST + |dtb|] == dtb
            && (forall i :: DTB_DST + |dtb| <= i < KERNEL_OFFSET ==> h[i] == 0)
            && h[KERNEL_OFFSET..KERNEL_OFFSET + |kernel|] == kernel
            && (forall i :: KERNEL_OFFSET + |kernel| <= i < |h| ==> h[i] == 0)
  {
    var base := BaseImage(stock);
    var dtb := Dtb(src);
    var h1 := Assign(base, DTB_DST, DTB_DST + |dtb|, dtb);
    var kernel := Kernel(src);
    var h := Assign(h1, KERNEL_OFFSET, KERNEL_OFFSET + |kernel|, kernel);
    var m := Min(|stock|, UBOOT_END);
    assert h1 == Splice(base, DTB_DST, dtb);
    SpliceOutside(base, DTB_DST, dtb);
    assert h == h1[..KERNEL_OFFSET] + kernel || h == h1[..KERNEL_OFFSET] + kernel + h1[KERNEL_OFFSET + |kernel|..];
    assert h[..KERNEL_OFFSET] == h1[..KERNEL_OFFSET];
    assert h[KERNEL_OFFSET..KERNEL_OFFSET + |kernel|] == kernel;
    forall i | 0 <= i < KERNEL_OFFSET
      ensures h[i] == h1[i]
    {
      assert h[i] == h[..KERNEL_OFFSET][i];
    }
    forall i | 0 <= i < m
      ensures h[i] == stock[i]
    {
      assert h1[i] == base[i] == base[..m][i];
    }
    assert h[..m] == stock[..m];
    forall i | KERNEL_OFFSET + |kernel| <= i < |h|
      ensures h[i] == 0
    {
      assert |src| < FLASH_SIZE;
      assert h[i] == h1[i];
      assert base[i] == 0;
    }
    assert |h| == Max(FLASH_SIZE, |src|);
  }

  /**
   With a payload that fits in 0xFFC bytes, the environment occupies exactly
   `[0xD0000, 0xD1000)`, which ends where the device tree begins, so nothing
   else of the composed image changes; its first word is the CRC-32 of the
   other 0xFFC bytes and it decodes back to the entries.
   */
  lemma CreateHybridFirmwareSpec(stock: seq<byte>, src: seq<byte>,
                                 mac: seq<byte>, bootcmd: seq<byte>, bootargs: seq<byte>)
    requires |Payload(Entries(mac, bootcmd, bootargs))| <= ENV_SIZE - 4
    requires NulFree(mac) && NulFree(bootcmd) && NulFree(bootargs)
    ensures var r := CreateHybridFirmware(stock, src, mac, bootcmd, bootargs).image;
            var h := Composed(stock, src);
            && ENV_OFFSET + ENV_SIZE == DTB_DST
            && (|r| == FLASH_SIZE <==> |src| <= FLASH_SIZE)
            && |r| == |h|
            && (forall i :: 0 <= i < |h| && !(ENV_OFFSET <= i < DTB_DST) ==> r[i] == h[i])
            && UnpackLE32(r[ENV_OFFSET..ENV_OFFSET + 4]) == Crc32.Crc(r[ENV_OFFSET + 4..DTB_DST])
            && DecodeEnv(r[ENV_OFFSET..DTB_DST], ENV_SIZE) == Some(Entries(mac, bootcmd, bootargs))
  {
    ComposedLayout(stock, src);
    NameOk("ethaddr");
    NameOk("bootcmd");
    NameOk("bootargs");
    DecodeEncode(Entries(mac, bootcmd, bootargs), ENV_SIZE);
  }

  /**
   The device tree copied from 0xB0750 is 6914 bytes long when the source
   image holds it, so it ends at 0xD2B02, before the kernel at 0xD5000.
   */
  lemma DtbFitsBeforeKernel(src: seq<byte>)
    requires DTB_SRC + DTB_SIZE <= |src|
    ensures |Dtb(src)| == DTB_SIZE
    ensures DTB_DST + |Dtb(src)| == 0xD2B02 < KERNEL_OFFSET
  {
  }
}

=== FILE: identity.dfy ===
/**
 The vendor identity record of custom_identity.py: six MAC bytes followed by
 a one-byte additive checksum, and a 128-byte slot holding the ASCII string
 `SN=<serial>,CHK=<decimal sum of the serial's character codes>`.
 */
module Identity {
  import opened Bytes
  import opened Wrappers

  const SLOT_SIZE: nat := 128

  // ---------------------------------------------------------------------------
  // Hexadecimal MAC text.

  function HexValue(c: char): Option<nat>
  {
    if '0' <= c <= '9' then Some(c as int - '0' as int)
    else if 'a' <= c <= 'f' then Some(c as int - 'a' as int + 10)
    else if 'A' <= c <= 'F' then Some(c as int - 'A' as int + 10)
    else None
  }

  /** Upper-case hexadecimal digit for a value below 16. */
  function HexChar(n: nat): (c: char)
    requires n < 16
    ensures HexValue(c) == Some(n)
  {
    if n < 10 then ('0' as int + n) as char else ('A' as int + n - 10) as char
  }

  /**
   Python `bytes.fromhex(s)` on text with no whitespace: pairs of hex digits in
   either case, one byte each; it fails exactly on odd length or a non-hex character.
   */
  function FromHex(s: string): (r: Option<seq<byte>>)
    ensures r.Some? <==> |s| % 2 == 0 && forall i :: 0 <= i < |s| ==> HexValue(s[i]).Some?
    ensures r.Some? ==> |r.value| * 2 == |s|
    decreases |s|
  {
    if |s| == 0 then Some([])
    else if |s| == 1 then None
    else
      assert forall i :: 2 <= i < |s| ==> s[i] == s[2..][i - 2];
      match (HexValue(s[0]), HexValue(s[1]), FromHex(s[2..]))
      case (Some(hi), Some(lo), Some(rest)) =>
        assert hi < 16 && lo < 16;
        Some([hi * 16 + lo] + rest)
      case _ => None
  }

  /** Python `s.replace(':', '')`. */
  function StripColons(s: string): (r: string)
    ensures ':' !in r
    decreases |s|
  {
    if |s| == 0 then []
    else (if s[0] == ':' then [] else [s[0]]) + StripColons(s[1..])
  }

  /** The MAC bytes custom_identity.py derives from its MAC text. */
  function ParseMac(s: string): Option<seq<byte>>
  {
    FromHex(StripColons(s))
  }

  /** Two upper-case hex digits per byte, no separators. */
  function Hex(m: seq<byte>): string
    decreases |m|
  {
    if |m| == 0 then [] else [HexChar(m[0] / 16), HexChar(m[0] % 16)] + Hex(m[1..])
  }

  /** The usual `AA:BB:..` notation of a MAC address. */
  function FormatMac(m: seq<byte>): string
    decreases |m|
  {
    if |m| == 0 then []
    else if |m| == 1 then Hex(m)
    else Hex(m[..1]) + ":" + FormatMac(m[1..])
  }

  lemma {:induction false} FromHexHex(m: seq<byte>)
    ensures FromHex(Hex(m)) == Some(m)
    decreases |m|
  {
    if |m| > 0 {
      var h := Hex(m);
      assert h[2..] == Hex(m[1..]);
      FromHexHex(m[1..]);
      assert m[0] / 16 * 16 + m[0] % 16 == m[0];
      assert [m[0]] + m[1..] == m;
    }
  }

  lemma {:induction false} StripHex(m: seq<byte>)
    ensures StripColons(Hex(m)) == Hex(m)
    decreases |m|
  {
    if |m| > 0 {
      var h := Hex(m);
      assert h[0] != ':' && h[1] != ':';
      StripHex(m[1..]);
      assert StripColons(h) == [h[0]] + StripColons(h[1..]);
      assert h[1..][1..] == h[2..];
    }
  }

  lemma {:induction false} StripAppend(a: string, b: string)
    ensures StripColons(a + b) == StripColons(a) + StripColons(b)
    decreases |a|
  {
    if |a| == 0 {
      assert a + b == b;
    } else {
      assert (a + b)[1..] == a[1..] + b;
      StripAppend(a[1..], b);
    }
  }

  lemma {:induction false} StripFormat(m: seq<byte>)
    ensures StripColons(FormatMac(m)) == Hex(m)
    decreases |m|
  {
    if |m| == 1 {
      StripHex(m);
    } else if |m| > 1 {
      StripAppend(Hex(m[..1]) + ":", FormatMac(m[1..]));
      StripAppend(Hex(m[..1]), ":");
      StripHex(m[..1]);
      StripFormat(m[1..]);
      assert Hex(m) == Hex(m[..1]) + Hex(m[1..]);
    }
  }

  /** Parsing the formatted text of a MAC gives back its bytes. */
  lemma ParseFormatMac(m: seq<byte>)
    ensures ParseMac(FormatMac(m)) == Some(m)
  {
    StripFormat(m);
    FromHexHex(m);
  }

  lemma HexByte(b: byte)
    ensures Hex([b]) == [HexChar(b / 16), HexChar(b % 16)]
  {
    assert [b][1..] == [];
  }

  lemma FormatCons(b: byte, hi: char, lo: char, rest: seq<byte>, tail: string)
    requires |rest| >= 1 && HexChar(b / 16) == hi && HexChar(b % 16) == lo && FormatMac(rest) == tail
    ensures FormatMac([b] + rest) == [hi, lo, ':'] + tail
  {
    var m := [b] + rest;
    assert m[..1] == [b] && m[1..] == rest;
    HexByte(b);
  }

  /** The last three bytes of the script's MAC print as "A3:67:EF". */
  lemma ExampleFormatTail(m: seq<byte>)
    requires m == [0xA3, 0x67, 0xEF]
    ensures FormatMac(m) == "A3:67:EF"
  {
    assert m[2..] == [m[2]];
    HexByte(m[2]);
    assert FormatMac(m[2..]) == "EF";
    FormatCons(m[1], '6', '7', m[2..], "EF");
    assert [m[1]] + m[2..] == m[1..];
    FormatCons(m[0], 'A', '3', m[1..], "67:EF");
    assert [m[0]] + m[1..] == m;
  }

  /** The hex digits of the first three bytes of the script's MAC. */
  lemma ExampleHeadDigits(b0: byte, b1: byte, b2: byte)
    requires b0 == 0x00 && b1 == 0x11 && b2 == 0x32
    ensures HexChar(b0 / 16) == '0' && HexChar(b0 % 16) == '0'
    ensures HexChar(b1 / 16) == '1' && HexChar(b1 % 16) == '1'
    ensures HexChar(b2 / 16) == '3' && HexChar(b2 % 16) == '2'
  {
  }

  lemma ExampleFormat(m: seq<byte>)
    requires m == [0x00, 0x11, 0x32, 0xA3, 0x67, 0xEF]
    ensures FormatMac(m) == "00:11:32:A3:67:EF"
  {
    ExampleHeadDigits(m[0], m[1], m[2]);
    ExampleFormatTail(m[3..]);
    FormatCons(m[2], '3', '2', m[3..], "A3:67:EF");
    assert [m[2]] + m[3..] == m[2..];
    FormatCons(m[1], '1', '1', m[2..], "32:A3:67:EF");
    assert [m[1]] + m[2..] == m[1..];
    FormatCons(m[0], '0', '0', m[1..], "11:32:A3:67:EF");
    assert [m[0]] + m[1..] == m;
  }

  lemma {:induction false} StripKeeps(s: string)
    ensures forall i :: 0 <= i < |s| ==> s[i] == ':' || s[i] in StripColons(s)
    decreases |s|
  {
    if |s| > 0 {
      StripKeeps(s[1..]);
      forall i | 1 <= i < |s|
        ensures s[i] == ':' || s[i] in StripColons(s)
      {
        assert s[i] == s[1..][i - 1];
      }
    }
  }

  /**
   Text that parses as a MAC holds only hex digits and colons: no NUL, and
   nothing outside ASCII, so encoding it as ASCII cannot fail.
   */
  lemma MacTextAscii(s: string)
    requires ParseMac(s).Some?
    ensures forall i :: 0 <= i < |s| ==> 0 < s[i] as int < 128
    ensures Ascii(s).Some?
  {
    StripKeeps(s);
    forall i | 0 <= i < |s|
      ensures 0 < s[i] as int < 128
    {
      if s[i] != ':' {
        var j :| 0 <= j < |StripColons(s)| && StripColons(s)[j] == s[i];
      }
    }
  }

  /** The MAC text custom_identity.py uses stands for exactly these six bytes. */
  lemma ExampleMac()
    ensures ParseMac("00:11:32:A3:67:EF") == Some([0x00, 0x11, 0x32, 0xA3, 0x67, 0xEF])
  {
    var m: seq<byte> := [0x00, 0x11, 0x32, 0xA3, 0x67, 0xEF];
    ExampleFormat(m);
    ParseFormatMac(m);
  }

  // ---------------------------------------------------------------------------
  // Checksums.

  /** The MAC checksum byte: the sum of the bytes reduced to its low 8 bits (`& 0xFF`). */
  function MacChecksum(mac: seq<byte>): (r: byte)
  {
    Sum(mac) % 256
  }

  lemma ExampleMacChecksum(m: seq<byte>)
    requires m == [0x00, 0x11, 0x32, 0xA3, 0x67, 0xEF]
    ensures Sum(m) == 0x23C
    ensures MacChecksum(m) == 0x3C
  {
    assert Sum(m[..1]) == 0x00;
    assert Sum(m[..2]) == 0x11;
    assert m[..3][..2] == m[..2];
    assert Sum(m[..3]) == 0x43;
    assert m[..4][..3] == m[..3];
    assert Sum(m[..4]) == 0xE6;
    assert m[..5][..4] == m[..4];
    assert Sum(m[..5]) == 0x14D;
    assert m[..6][..5] == m[..5];
    assert m[..6] == m;
  }

  /** The serial checksum: the unbounded sum of the character codes, with no modulus. */
  function SerialChecksum(sn: string): nat
    decreases |sn|
  {
    if |sn| == 0 then 0 else SerialChecksum(sn[..|sn| - 1]) + sn[|sn| - 1] as nat
  }

  /**
   The checksum of a concatenation is the sum of the parts' checksums: the
   accumulation is never reduced, whatever way the serial is cut.
   */
  lemma {:induction false} SerialChecksumAppend(a: string, b: string)
    ensures SerialChecksum(a + b) == SerialChecksum(a) + SerialChecksum(b)
    decreases |b|
  {
    if |b| == 0 {
      assert a + b == a;
    } else {
      var c := a + b;
      assert c[..|c| - 1] == a + b[..|b| - 1];
      SerialChecksumAppend(a, b[..|b| - 1]);
    }
  }

  /** The script's loop: `chk_sum += ord(char)` for each character, starting from 0. */
  method AccumulateChecksum(sn: string) returns (chk: nat)
    ensures chk == SerialChecksum(sn)
  {
    chk := 0;
    var i := 0;
    while i < |sn|
      invariant 0 <= i <= |sn|
      invariant chk == SerialChecksum(sn[..i])
    {
      assert sn[..i + 1][..i] == sn[..i];
      chk := chk + sn[i] as nat;
      i := i + 1;
    }
    assert sn[..i] == sn;
  }

  // ---------------------------------------------------------------------------
  // Decimal rendering of the checksum.

  function DigitChar(d: nat): (c: char)
    requires d < 10
  {
    ('0' as int + d) as char
  }

  /** Python `str(n)` for a non-negative integer. */
  function Decimal(n: nat): (s: string)
    ensures |s| >= 1
    decreases n
  {
    if n < 10 then [DigitChar(n)] else Decimal(n / 10) + [DigitChar(n % 10)]
  }

  /** The number a string of decimal digits denotes. */
  function DecimalValue(s: string): nat
    decreases |s|
  {
    if |s| == 0 then 0
    else
      var d := s[|s| - 1] as int - '0' as int;
      DecimalValue(s[..|s| - 1]) * 10 + (if 0 <= d < 10 then d else 0)
  }

  predicate IsDigits(s: string)
  {
    forall i :: 0 <= i < |s| ==> '0' <= s[i] <= '9'
  }

  /** Decimal text is made of digits, has no leading zero, and reads back as the number. */
  lemma {:induction false} DecimalRoundTrip(n: nat)
    ensures IsDigits(Decimal(n))
    ensures |Decimal(n)| == 1 || Decimal(n)[0] != '0'
    ensures DecimalValue(Decimal(n)) == n
    decreases n
  {
    if n >= 10 {
      DecimalRoundTrip(n / 10);
      var s := Decimal(n);
      assert s[..|s| - 1] == Decimal(n / 10);
    }
  }

  /** The text written into the vendor slot. */
  function VendorString(sn: string): string
  {
    "SN=" + sn + ",CHK=" + Decimal(SerialChecksum(sn))
  }

  /**
   The vendor text is "SN=", the serial, ",CHK=", then decimal digits with no
   leading zero that read back as the serial's checksum.
   */
  lemma VendorStringSpec(sn: string)
    ensures var v := VendorString(sn);
            var digits := v[|sn| + 8..];
            && |v| > |sn| + 8
            && v[..3] == "SN="
            && v[3..3 + |sn|] == sn
            && v[3 + |sn|..|sn| + 8] == ",CHK="
            && IsDigits(digits)
            && (|digits| == 1 || digits[0] != '0')
            && DecimalValue(digits) == SerialChecksum(sn)
  {
    var d := Decimal(SerialChecksum(sn));
    var v := VendorString(sn);
    DecimalRoundTrip(SerialChecksum(sn));
    assert v == "SN=" + sn + ",CHK=" + d;
    assert v[|sn| + 8..] == d;
  }

  /** The serial number custom_identity.py uses sums to 713. */
  lemma ExampleSerialChecksum(s: string)
    requires s == "1910Q2N321313"
    ensures SerialChecksum(s) == 713
  {
    assert s[..1][..0] == s[..0];
    assert SerialChecksum(s[..1]) == 49;
    assert s[..2][..1] == s[..1];
    assert SerialChecksum(s[..2]) == 106;
    assert s[..3][..2] == s[..2];
    assert SerialChecksum(s[..3]) == 155;
    assert s[..4][..3] == s[..3];
    assert SerialChecksum(s[..4]) == 203;
    assert s[..5][..4] == s[..4];
    assert SerialChecksum(s[..5]) == 284;
    assert s[..6][..5] == s[..5];
    assert SerialChecksum(s[..6]) == 334;
    assert s[..7][..6] == s[..6];
    assert SerialChecksum(s[..7]) == 412;
    assert s[..8][..7] == s[..7];
    assert SerialChecksum(s[..8]) == 463;
    assert s[..9][..8] == s[..8];
    assert SerialChecksum(s[..9]) == 513;
    assert s[..10][..9] == s[..9];
    assert SerialChecksum(s[..10]) == 562;
    assert s[..11][..10] == s[..10];
    assert SerialChecksum(s[..11]) == 613;
    assert s[..12][..11] == s[..11];
    assert SerialChecksum(s[..12]) == 662;
    assert s[..13][..12] == s[..12];
    assert SerialChecksum(s[..13]) == 713;
    assert s[..13] == s;
  }

  lemma ExampleVendorString()
    ensures VendorString("1910Q2N321313") == "SN=1910Q2N321313,CHK=713"
  {
    ExampleSerialChecksum("1910Q2N321313");
    assert Decimal(7) == "7";
    assert Decimal(71) == "71";
    assert Decimal(713) == "713";
  }

  /** Python `s.encode('ascii')`: fails on any character at or above 128. */
  function Ascii(s: string): (r: Option<seq<byte>>)
    ensures r.Some? ==> |r.value| == |s|
    ensures r.Some? ==> forall i :: 0 <= i < |s| ==> r.value[i] == s[i] as int
    ensures r.None? <==> exists i :: 0 <= i < |s| && s[i] as int >= 128
  {
    if forall i :: 0 <= i < |s| ==> s[i] as int < 128
    then Some(seq(|s|, i requires 0 <= i < |s| => s[i] as int))
    else None
  }

  // ---------------------------------------------------------------------------
  // Writing the record.

  /**
   Writes the MAC bytes over the six-byte field `[v, v+6)` by slice assignment,
   then its checksum byte by index assignment at `v+6`; `None` is the
   IndexError Python raises when `v+6` lies past the end. A MAC of another
   length than six would resize the image, which the contract records.
   */
  function PatchMac(data: seq<byte>, v: nat, mac: seq<byte>): (r: Option<seq<byte>>)
    ensures |mac| == 6 ==> (r.Some? <==> v + 6 < |data|)
    ensures |mac| == 6 && v + 6 < |data| ==>
              && r.Some?
              && |r.value| == |data|
              && r.value[v..v + 6] == mac
              && r.value[v + 6] == MacChecksum(mac)
              && (forall i :: 0 <= i < |data| && !(v <= i < v + 7) ==> r.value[i] == data[i])
    ensures v + 6 <= |data| && r.Some? ==> |r.value| == |data| - 6 + |mac|
  {
    var d := Assign(data, v, v + 6, mac);
    if v + 6 < |d| then
      PatchMacFacts(data, v, mac, d);
      Some(d[v + 6 := MacChecksum(mac)])
    else None
  }

  lemma PatchMacFacts(data: seq<byte>, v: nat, mac: seq<byte>, d: seq<byte>)
    requires d == Assign(data, v, v + 6, mac)
    ensures |mac| == 6 && v + 6 <= |data| ==>
              |d| == |data| && d[v..v + 6] == mac
              && forall i :: 0 <= i < |data| && !(v <= i < v + 6) ==> d[i] == data[i]
  {
    if |mac| == 6 && v + 6 <= |data| {
      assert d == Splice(data, v, mac);
      SpliceOutside(data, v, mac);
    }
  }

  /**
   Clears the 128-byte slot at `t` and then writes `vs` at `t` by slice
   assignment. Nothing stops a string longer than the slot: it overwrites the
   bytes after the slot (or grows a buffer that is too short).
   */
  function WriteSlot(data: seq<byte>, t: nat, vs: seq<byte>): (r: seq<byte>)
    ensures t + Max(SLOT_SIZE, |vs|) <= |data| ==>
              && |r| == |data|
              && r[t..t + |vs|] == vs
              && (forall i :: t + |vs| <= i < t + SLOT_SIZE ==> r[i] == 0)
              && (forall i :: 0 <= i < |data| && !(t <= i < t + Max(SLOT_SIZE, |vs|)) ==> r[i] == data[i])
  {
    var cleared := Assign(data, t, t + SLOT_SIZE, Zeros(SLOT_SIZE));
    var r := Assign(cleared, t, t + |vs|, vs);
    if t + Max(SLOT_SIZE, |vs|) <= |data| then WriteSlotFacts(data, t, vs, cleared, r); r else r
  }

  lemma WriteSlotFacts(data: seq<byte>, t: nat, vs: seq<byte>, cleared: seq<byte>, r: seq<byte>)
    requires cleared == Assign(data, t, t + SLOT_SIZE, Zeros(SLOT_SIZE))
    requires r == Assign(cleared, t, t + |vs|, vs)
    requires t + Max(SLOT_SIZE, |vs|) <= |data|
    ensures |r| == |data|
    ensures r[t..t + |vs|] == vs
    ensures forall i :: t + |vs| <= i < t + SLOT_SIZE ==> r[i] == 0
    ensures forall i :: 0 <= i < |data| && !(t <= i < t + Max(SLOT_SIZE, |vs|)) ==> r[i] == data[i]
  {
    assert forall i :: t + |vs| <= i < t + SLOT_SIZE ==> r[i] == 0 by {
      forall i | t + |vs| <= i < t + SLOT_SIZE
        ensures r[i] == 0
      {
        assert r[i] == r[t + |vs|..][i - t - |vs|] == cleared[t + |vs|..][i - t - |vs|];
        assert cleared[i] == cleared[t..t + SLOT_SIZE][i - t];
      }
    }
    assert forall i :: 0 <= i < |data| && !(t <= i < t + Max(SLOT_SIZE, |vs|)) ==> r[i] == data[i] by {
      forall i | 0 <= i < |data| && !(t <= i < t + Max(SLOT_SIZE, |vs|))
        ensures r[i] == data[i]
      {
        if i < t {
          assert r[i] == r[..t][i] == cleared[..t][i] == data[..t][i];
        } else {
          assert r[i] == r[t + |vs|..][i - t - |vs|] == cleared[t + |vs|..][i - t - |vs|];
          assert cleared[i] == cleared[t + SLOT_SIZE..][i - t - SLOT_SIZE] == data[t + SLOT_SIZE..][i - t - SLOT_SIZE];
        }
      }
    }
  }
}

=== FILE: keyfix.dfy ===
/**
 key_fix.py: a 64 KiB environment holding the machine key, the MAC address
 and the boot settings, written in place at 0xD0000 of an image.
 */
module KeyFix {
  import opened Bytes
  import opened Wrappers
  import opened EnvBlock
  import Crc32

  const ENV_OFFSET: nat := 0xD0000
  const ENV_SIZE: nat := 0x10000

  /**
   The dictionary of the script in its insertion order. The key and MAC text
   and the two long boot strings are parameters; the short values are the
   script's own literals.
   */
  function Entries(key: seq<byte>, mac: seq<byte>, synoBootargs: seq<byte>, bootcmd: seq<byte>): (r: seq<Entry>)
    ensures |r| == 7
  {
    [ Entry(OfString("key"), key),
      Entry(OfString("ethaddr"), mac),
      Entry(OfString("syno_bootargs"), synoBootargs),
      Entry(OfString("bootcmd"), bootcmd),
      Entry(OfString("image_name"), OfString("Image")),
      Entry(OfString("netdev"), OfString("eth0")),
      Entry(OfString("boot_targets"), OfString("sata usb mmc0")) ]
  }

  /** The whole transformation of `create_unlocked_firmware`. */
  function CreateUnlockedFirmware(data: seq<byte>, key: seq<byte>, mac: seq<byte>,
                                  synoBootargs: seq<byte>, bootcmd: seq<byte>): seq<byte>
  {
    InstallEnv(data, ENV_OFFSET, Entries(key, mac, synoBootargs, bootcmd), ENV_SIZE)
  }

  /** The payload opens with `key=<key>` and then `ethaddr=<mac>`, each NUL-terminated. */
  lemma PayloadStartsWithKey(key: seq<byte>, mac: seq<byte>, synoBootargs: seq<byte>, bootcmd: seq<byte>)
    ensures var p := Payload(Entries(key, mac, synoBootargs, bootcmd));
            var head := OfString("key=") + key + [NUL] + OfString("ethaddr=") + mac + [NUL];
            StartsWith(p, head)
  {
    var es := Entries(key, mac, synoBootargs, bootcmd);
    var kv := OfString("key=") + key;
    var mv := OfString("ethaddr=") + mac;
    assert Item(es[0]) == kv by { ItemText("key", key); }
    assert Item(es[1]) == mv by { ItemText("ethaddr", mac); }
    PayloadHead2(es);
    AppendAssoc(kv + [NUL], OfString("ethaddr="), mac);
  }

  /**
   With a payload that fits in 0xFFFC bytes, the block goes to 0xD0000, or to
   the end of an image shorter than that: an image that reaches 0xE0000 keeps
   its length and every byte outside `[0xD0000, 0xE0000)`, a shorter one ends
   with the block. The stored word is the CRC-32 of the following 0xFFFC bytes,
   and the region decodes to the entries again.
   */
  lemma CreateUnlockedFirmwareSpec(data: seq<byte>, key: seq<byte>, mac: seq<byte>,
                                   synoBootargs: seq<byte>, bootcmd: seq<byte>)
    requires |Payload(Entries(key, mac, synoBootargs, bootcmd))| <= ENV_SIZE - 4
    requires NulFree(key) && NulFree(mac) && NulFree(synoBootargs) && NulFree(bootcmd)
    ensures var r := CreateUnlockedFirmware(data, key, mac, synoBootargs, bootcmd);
            var at := Min(|data|, ENV_OFFSET);
            && |r| == Max(|data|, at + ENV_SIZE)
            && r[..at] == data[..at]
            && (forall i :: 0 <= i < |data| && !(ENV_OFFSET <= i < ENV_OFFSET + ENV_SIZE) ==> r[i] == data[i])
            && UnpackLE32(r[at..at + 4]) == Crc32.Crc(r[at + 4..at + ENV_SIZE])
            && DecodeEnv(r[at..at + ENV_SIZE], ENV_SIZE) == Some(Entries(key, mac, synoBootargs, bootcmd))
  {
    var es := Entries(key, mac, synoBootargs, bootcmd);
    var r := CreateUnlockedFirmware(data, key, mac, synoBootargs, bootcmd);
    var at := Min(|data|, ENV_OFFSET);
    KeysWellFormed(key, mac, synoBootargs, bootcmd);
    InstallEnvAt(data, ENV_OFFSET, es, ENV_SIZE);
    DecodeEncode(es, ENV_SIZE);
    CrcWordAt(r, at, EncodeEnv(es, ENV_SIZE));
  }

  lemma KeysWellFormed(key: seq<byte>, mac: seq<byte>, synoBootargs: seq<byte>, bootcmd: seq<byte>)
    requires NulFree(key) && NulFree(mac) && NulFree(synoBootargs) && NulFree(bootcmd)
    ensures WellFormed(Entries(key, mac, synoBootargs, bootcmd))
  {
    LeadingNamesOk();
    TrailingLiteralsOk();
  }

  /** The names of the first four entries have no NUL and no `=`. */
  lemma LeadingNamesOk()
    ensures NulFree(OfString("key")) && EQ !in OfString("key")
    ensures NulFree(OfString("ethaddr")) && EQ !in OfString("ethaddr")
    ensures NulFree(OfString("syno_bootargs")) && EQ !in OfString("syno_bootargs")
    ensures NulFree(OfString("bootcmd")) && EQ !in OfString("bootcmd")
  {
    NameOk("key");
    NameOk("ethaddr");
    NameOk("syno_bootargs");
    NameOk("bootcmd");
  }

  /** The last three entries, names and values, have no NUL, and the names no `=`. */
  lemma TrailingLiteralsOk()
    ensures NulFree(OfString("image_name")) && EQ !in OfString("image_name")
    ensures NulFree(OfString("netdev")) && EQ !in OfString("netdev")
    ensures NulFree(OfString("boot_targets")) && EQ !in OfString("boot_targets")
    ensures NulFree(OfString("Image")) && NulFree(OfString("eth0")) && NulFree(OfString("sata usb mmc0"))
  {
    NameOk("image_name");
    NameOk("netdev");
    NameOk("boot_targets");
    TextOk("Image");
    TextOk("eth0");
    TextOk("sata usb mmc0");
  }
}

=== FILE: merge.dfy ===
/**
 merge.py: finds the device tree, kernel and ramdisk of a newer image by
 their magic numbers and lays them out after the U-Boot part of an older
 image, by seek and write, padding the file with 0xFF up to 8 MiB.
 */
module Merge {
  import opened Bytes
  import opened Signatures

  const ADDR_DTB: nat := 0xCC800
  const ADDR_KERNEL: nat := 0xD5000
  const ADDR_RAMDISK: nat := 0x500000
  const TOTAL_SIZE: nat := 0x800000
  /** How much is copied from the device-tree magic on. */
  const DTB_SPAN: nat := 0x8000
  /** The ramdisk header is searched for this far past the kernel header. */
  const RAMDISK_GAP: nat := 0x10000
  /** Room between the kernel and the ramdisk. */
  const KERNEL_ROOM: nat := ADDR_RAMDISK - ADDR_KERNEL

  /**
   `find_header`: the first index at or after `start` where `magic` occurs, or
   -1 when there is none (Python `bytes.index` turning ValueError into -1). A
   negative `start` counts back from the end of `data`.
   */
  method FindHeader(data: seq<byte>, magic: seq<byte>, start: int) returns (r: int)
    ensures var from := SearchStart(|data|, start);
            && (r == -1 <==> forall i :: from <= i ==> !OccursAt(data, magic, i))
            && (r != -1 ==> from <= r && OccursAt(data, magic, r))
            && (forall i :: from <= i && (r == -1 || i < r) ==> !OccursAt(data, magic, i))
    ensures r == Find(data, magic, start)
  {
    var from := SearchStart(|data|, start);
    var i := from;
    while i + |magic| <= |data|
      invariant from <= i
      invariant forall j :: from <= j < i ==> !OccursAt(data, magic, j)
      invariant IndexOf(data, magic, from) == IndexOf(data, magic, i)
      decreases |data| - i
    {
      if data[i..i + |magic|] == magic {
        return i;
      }
      i := i + 1;
    }
    return -1;
  }

  /** What `find_header` returns, as a function. */
  function Find(data: seq<byte>, magic: seq<byte>, start: int): (r: int)
    ensures r == -1 || (SearchStart(|data|, start) <= r && OccursAt(data, magic, r))
  {
    IndexOf(data, magic, SearchStart(|data|, start))
  }

  /** The offsets `merge_firmware_v3` computes: device tree, kernel and ramdisk headers. */
  datatype Offsets = Offsets(dtb: int, kernel: int, ramdisk: int)

  /**
   The three searches of the script. The kernel search starts at the device
   tree's offset, and the ramdisk search 0x10000 past the kernel's, even when
   the previous search gave -1: a start of -1 leaves too little room for a
   four-byte magic, and -1 + 0x10000 is an ordinary start.
   */
  function Locate(src: seq<byte>): (o: Offsets)
    ensures FirstFrom(src, DTB_MAGIC, 0, o.dtb)
    ensures o.dtb == -1 ==> o.kernel == -1
    ensures 0 <= o.dtb ==> FirstFrom(src, UIMAGE_MAGIC, o.dtb, o.kernel)
    ensures -1 <= o.kernel && FirstFrom(src, UIMAGE_MAGIC, o.kernel + RAMDISK_GAP, o.ramdisk)
  {
    var d := Find(src, DTB_MAGIC, 0);
    IndexOfSpec(src, DTB_MAGIC, 0);
    var k := Find(src, UIMAGE_MAGIC, d);
    IndexOfSpec(src, UIMAGE_MAGIC, SearchStart(|src|, d));
    var r := Find(src, UIMAGE_MAGIC, k + RAMDISK_GAP);
    IndexOfSpec(src, UIMAGE_MAGIC, SearchStart(|src|, k + RAMDISK_GAP));
    Offsets(d, k, r)
  }

  /** The script relies on all three headers being found. */
  predicate MagicsPresent(src: seq<byte>)
  {
    var o := Locate(src);
    0 <= o.dtb && 0 <= o.kernel && 0 <= o.ramdisk
  }

  /** The four parts written to the output file. */
  datatype Parts = Parts(uboot: seq<byte>, dtb: seq<byte>, kernel: seq<byte>, ramdisk: seq<byte>)

  function Extract(stock: seq<byte>, src: seq<byte>): (p: Parts)
    requires MagicsPresent(src)
    ensures |p.uboot| == Min(|stock|, ADDR_DTB) && p.uboot == stock[..|p.uboot|]
    ensures var o := Locate(src);
            && p.dtb == src[o.dtb..Min(o.dtb + DTB_SPAN, |src|)]
            && p.kernel == src[o.kernel..o.ramdisk]
            && p.ramdisk == src[o.ramdisk..]
            && p.kernel + p.ramdisk == src[o.kernel..]
  {
    var o := Locate(src);
    LocateOrder(src);
    var p := Parts(Slice(stock, 0, ADDR_DTB), Slice(src, o.dtb, o.dtb + DTB_SPAN),
                   Slice(src, o.kernel, o.ramdisk), Slice(src, o.ramdisk, |src|));
    assert p.kernel + p.ramdisk == src[o.kernel..];
    p
  }

  /** With every header found, the three offsets are in order and each holds its magic. */
  lemma LocateOrder(src: seq<byte>)
    requires MagicsPresent(src)
    ensures var o := Locate(src);
            && OccursAt(src, DTB_MAGIC, o.dtb)
            && o.dtb <= o.kernel && OccursAt(src, UIMAGE_MAGIC, o.kernel)
            && o.kernel + RAMDISK_GAP <= o.ramdisk && OccursAt(src, UIMAGE_MAGIC, o.ramdisk)
  {
  }

  /**
   Each extracted part opens with its header: the device tree (at most
   0x8000 bytes) with 0xD00DFEED, the kernel (at least 0x10000 bytes, up to
   the ramdisk header) and the ramdisk with 0x27051956.
   */
  lemma PartsHeaders(stock: seq<byte>, src: seq<byte>)
    requires MagicsPresent(src)
    ensures var p := Extract(stock, src);
            && |p.dtb| <= DTB_SPAN && StartsWith(p.dtb, DTB_MAGIC)
            && RAMDISK_GAP <= |p.kernel| && StartsWith(p.kernel, UIMAGE_MAGIC)
            && StartsWith(p.ramdisk, UIMAGE_MAGIC)
  {
    var o := Locate(src);
    LocateOrder(src);
    HeaderStarts(src, DTB_MAGIC, o.dtb, Min(o.dtb + DTB_SPAN, |src|));
    HeaderStarts(src, UIMAGE_MAGIC, o.kernel, o.ramdisk);
    HeaderStarts(src, UIMAGE_MAGIC, o.ramdisk, |src|);
  }

  /** A part cut from a header's offset starts with that header. */
  lemma HeaderStarts(src: seq<byte>, magic: seq<byte>, lo: nat, hi: nat)
    requires OccursAt(src, magic, lo) && lo + |magic| <= hi <= |src|
    ensures StartsWith(src[lo..hi], magic)
  {
    assert src[lo..hi][..|magic|] == src[lo..lo + |magic|];
  }

  /** The file after the four seek-and-write steps, in the script's order. */
  function Layout(p: Parts): seq<byte>
  {
    var f1 := WriteAt([], 0, p.uboot);
    var f2 := WriteAt(f1, ADDR_DTB, p.dtb);
    var f3 := WriteAt(f2, ADDR_KERNEL, p.kernel);
    WriteAt(f3, ADDR_RAMDISK, p.ramdisk)
  }

  /** The file position after the last write: the end of the ramdisk. */
  function FinalPosition(p: Parts): nat
  {
    ADDR_RAMDISK + |p.ramdisk|
  }

  /** Pads with 0xFF from the final position to 8 MiB, when that position lies below it. */
  function Finish(p: Parts): seq<byte>
  {
    var curr := FinalPosition(p);
    if curr < TOTAL_SIZE then WriteAt(Layout(p), curr, Fill(TOTAL_SIZE - curr, 0xFF)) else Layout(p)
  }

  /** The whole of `merge_firmware_v3`, given that every magic is found. */
  function MergeFirmware(stock: seq<byte>, src: seq<byte>): seq<byte>
    requires MagicsPresent(src)
  {
    Finish(Extract(stock, src))
  }

  /** The file after each of the four writes. */
  function Written(p: Parts, n: nat): seq<byte>
    requires n <= 4
  {
    if n == 0 then []
    else if n == 1 then WriteAt([], 0, p.uboot)
    else if n == 2 then WriteAt(Written(p, 1), ADDR_DTB, p.dtb)
    else if n == 3 then WriteAt(Written(p, 2), ADDR_KERNEL, p.kernel)
    else WriteAt(Written(p, 3), ADDR_RAMDISK, p.ramdisk)
  }

  lemma WrittenLengths(p: Parts)
    requires |p.uboot| <= ADDR_DTB && |p.dtb| <= DTB_SPAN
    ensures Layout(p) == Written(p, 4)
    ensures |Written(p, 1)| == |p.uboot|
    ensures |Written(p, 2)| == ADDR_DTB + |p.dtb|
    ensures |Written(p, 3)| == ADDR_KERNEL + |p.kernel|
    ensures |Written(p, 4)| == Max(ADDR_KERNEL + |p.kernel|, FinalPosition(p))
  {
  }

  /** The U-Boot part survives the three later writes, which all start at or above 0xCC800. */
  lemma LayoutUboot(p: Parts)
    requires |p.uboot| <= ADDR_DTB && |p.dtb| <= DTB_SPAN
    ensures |p.uboot| <= |Layout(p)| && Layout(p)[..|p.uboot|] == p.uboot
  {
    WrittenLengths(p);
    var u := |p.uboot|;
    WriteAtSpec([], 0, p.uboot);
    assert Written(p, 1)[0..u] == p.uboot;
    WriteAtKeeps(Written(p, 1), ADDR_DTB, p.dtb, 0, u);
    WriteAtKeeps(Written(p, 2), ADDR_KERNEL, p.kernel, 0, u);
    WriteAtKeeps(Written(p, 3), ADDR_RAMDISK, p.ramdisk, 0, u);
    assert Layout(p)[..u] == Layout(p)[0..u];
  }

  /** The device tree ends before 0xD5000, so the kernel and ramdisk writes leave it. */
  lemma LayoutDtb(p: Parts)
    requires |p.uboot| <= ADDR_DTB && |p.dtb| <= DTB_SPAN
    ensures ADDR_DTB + |p.dtb| <= |Layout(p)| && Layout(p)[ADDR_DTB..ADDR_DTB + |p.dtb|] == p.dtb
  {
    WrittenLengths(p);
    var dEnd := ADDR_DTB + |p.dtb|;
    WriteAtSpec(Written(p, 1), ADDR_DTB, p.dtb);
    WriteAtKeeps(Written(p, 2), ADDR_KERNEL, p.kernel, ADDR_DTB, dEnd);
    WriteAtKeeps(Written(p, 3), ADDR_RAMDISK, p.ramdisk, ADDR_DTB, dEnd);
  }

  /** The kernel survives below 0x500000, where the ramdisk write begins. */
  lemma LayoutKernel(p: Parts)
    requires |p.uboot| <= ADDR_DTB && |p.dtb| <= DTB_SPAN
    ensures var kEnd := Min(ADDR_KERNEL + |p.kernel|, ADDR_RAMDISK);
            kEnd <= |Layout(p)| && Layout(p)[ADDR_KERNEL..kEnd] == p.kernel[..kEnd - ADDR_KERNEL]
  {
    WrittenLengths(p);
    var f3 := Written(p, 3);
    WriteAtSpec(Written(p, 2), ADDR_KERNEL, p.kernel);
    var kEnd := Min(ADDR_KERNEL + |p.kernel|, ADDR_RAMDISK);
    assert f3[ADDR_KERNEL..kEnd] == p.kernel[..kEnd - ADDR_KERNEL] by {
      assert f3[ADDR_KERNEL..kEnd] == f3[ADDR_KERNEL..ADDR_KERNEL + |p.kernel|][..kEnd - ADDR_KERNEL];
    }
    WriteAtKeeps(f3, ADDR_RAMDISK, p.ramdisk, ADDR_KERNEL, kEnd);
  }

  /**
   What the writes leave: later writes win where ranges overlap, and the U-Boot
   part, the device tree and the ramdisk survive because nothing written after
   them reaches into their ranges.
   */
  lemma LayoutSpec(p: Parts)
    requires |p.uboot| <= ADDR_DTB && |p.dtb| <= DTB_SPAN
    ensures var f := Layout(p);
            && |f| == Max(ADDR_KERNEL + |p.kernel|, FinalPosition(p))
            && f[..|p.uboot|] == p.uboot
            && f[ADDR_DTB..ADDR_DTB + |p.dtb|] == p.dtb
            && f[ADDR_RAMDISK..FinalPosition(p)] == p.ramdisk
            && (|p.kernel| <= KERNEL_ROOM ==> f[ADDR_KERNEL..ADDR_KERNEL + |p.kernel|] == p.kernel)
            && (forall i :: ADDR_KERNEL <= i < ADDR_RAMDISK && i < ADDR_KERNEL + |p.kernel| ==> f[i] == p.kernel[i - ADDR_KERNEL])
  {
    WrittenLengths(p);
    LayoutUboot(p);
    LayoutDtb(p);
    LayoutKernel(p);
    WriteAtSpec(Written(p, 3), ADDR_RAMDISK, p.ramdisk);
    var f := Layout(p);
    var kEnd := Min(ADDR_KERNEL + |p.kernel|, ADDR_RAMDISK);
    forall i | ADDR_KERNEL <= i < kEnd
      ensures f[i] == p.kernel[i - ADDR_KERNEL]
    {
      assert f[i] == f[ADDR_KERNEL..kEnd][i - ADDR_KERNEL];
    }
  }

  /**
   The seeks past the end leave zeros: between the U-Boot part and 0xCC800
   when the old image is short, and between the device tree and 0xD5000.
   */
  lemma LayoutGaps(p: Parts)
    requires |p.uboot| <= ADDR_DTB && |p.dtb| <= DTB_SPAN
    ensures ADDR_KERNEL <= |Layout(p)|
    ensures forall i :: |p.uboot| <= i < ADDR_DTB ==> Layout(p)[i] == 0
    ensures forall i :: ADDR_DTB + |p.dtb| <= i < ADDR_KERNEL ==> Layout(p)[i] == 0
  {
    WrittenLengths(p);
    var f1 := Written(p, 1);
    var f2 := Written(p, 2);
    var f3 := Written(p, 3);
    var f := Layout(p);
    WriteAtSpec(f1, ADDR_DTB, p.dtb);
    WriteAtSpec(f2, ADDR_KERNEL, p.kernel);
    WriteAtKeeps(f3, ADDR_RAMDISK, p.ramdisk, 0, ADDR_KERNEL);
    forall i | |p.uboot| <= i < ADDR_DTB
      ensures f[i] == 0
    {
      assert f[i] == f[0..ADDR_KERNEL][i] == f3[..ADDR_KERNEL][i] == f2[..ADDR_DTB][i];
      assert f2[..ADDR_DTB] == f1 + Zeros(ADDR_DTB - |f1|);
    }
    forall i | ADDR_DTB + |p.dtb| <= i < ADDR_KERNEL
      ensures f[i] == 0
    {
      assert f[i] == f[0..ADDR_KERNEL][i] == f3[..ADDR_KERNEL][i];
      assert f3[..ADDR_KERNEL] == f2 + Zeros(ADDR_KERNEL - |f2|);
    }
  }

  /** Padding only writes at and after the final position, so everything before it stays. */
  lemma FinishKeeps(p: Parts)
    requires |p.uboot| <= ADDR_DTB && |p.dtb| <= DTB_SPAN
    ensures |Finish(p)| == Max(TOTAL_SIZE, |Layout(p)|)
    ensures Finish(p)[..FinalPosition(p)] == Layout(p)[..FinalPosition(p)]
    ensures forall i :: FinalPosition(p) <= i < TOTAL_SIZE ==> Finish(p)[i] == 0xFF
  {
    LayoutSpec(p);
    var curr := FinalPosition(p);
    if curr < TOTAL_SIZE {
      var pad := Fill(TOTAL_SIZE - curr, 0xFF);
      WriteAtKeeps(Layout(p), curr, pad, 0, curr);
      WriteAtSpec(Layout(p), curr, pad);
      assert Finish(p)[curr..TOTAL_SIZE] == pad;
      forall i | curr <= i < TOTAL_SIZE
        ensures Finish(p)[i] == 0xFF
      {
        assert Finish(p)[i] == Finish(p)[curr..TOTAL_SIZE][i - curr];
      }
    }
  }

  /**
   When the kernel is longer than its room of 0x42B000 bytes, the ramdisk
   write lands inside it: the output byte at 0x500000 is the ramdisk's first
   byte, so the kernel survives only if its own byte there happens to agree.
   */
  lemma KernelOverrun(p: Parts)
    requires |p.uboot| <= ADDR_DTB && |p.dtb| <= DTB_SPAN && |p.ramdisk| > 0
    requires KERNEL_ROOM < |p.kernel|
    ensures Finish(p)[ADDR_RAMDISK] == p.ramdisk[0]
    ensures Finish(p)[ADDR_KERNEL..ADDR_KERNEL + |p.kernel|] == p.kernel ==> p.kernel[KERNEL_ROOM] == p.ramdisk[0]
  {
    LayoutSpec(p);
    FinishKeeps(p);
    var f := Layout(p);
    var out := Finish(p);
    assert f[ADDR_RAMDISK] == f[ADDR_RAMDISK..FinalPosition(p)][0];
    assert out[ADDR_RAMDISK] == out[..FinalPosition(p)][ADDR_RAMDISK];
    if out[ADDR_KERNEL..ADDR_KERNEL + |p.kernel|] == p.kernel {
      assert out[ADDR_KERNEL..ADDR_KERNEL + |p.kernel|][KERNEL_ROOM] == out[ADDR_RAMDISK];
    }
  }

  /** What the padded file holds, part by part. */
  lemma FinishSpec(p: Parts)
    requires |p.uboot| <= ADDR_DTB && |p.dtb| <= DTB_SPAN
    ensures |Finish(p)| == Max(TOTAL_SIZE, Max(ADDR_KERNEL + |p.kernel|, FinalPosition(p)))
    ensures Finish(p)[..|p.uboot|] == p.uboot
    ensures Finish(p)[ADDR_DTB..ADDR_DTB + |p.dtb|] == p.dtb
    ensures |p.kernel| <= KERNEL_ROOM ==> Finish(p)[ADDR_KERNEL..ADDR_KERNEL + |p.kernel|] == p.kernel
    ensures 4 <= |p.dtb| ==> Finish(p)[ADDR_DTB..ADDR_DTB + 4] == p.dtb[..4]
    ensures 4 <= |p.kernel| ==> Finish(p)[ADDR_KERNEL..ADDR_KERNEL + 4] == p.kernel[..4]
    ensures Finish(p)[ADDR_RAMDISK..FinalPosition(p)] == p.ramdisk
    ensures forall i :: FinalPosition(p) <= i < TOTAL_SIZE ==> Finish(p)[i] == 0xFF
    ensures forall i :: |p.uboot| <= i < ADDR_DTB ==> Finish(p)[i] == 0
    ensures forall i :: ADDR_DTB + |p.dtb| <= i < ADDR_KERNEL ==> Finish(p)[i] == 0
  {
    LayoutSpec(p);
    FinishKeeps(p);
    LayoutGaps(p);
    var out := Finish(p);
    var f := Layout(p);
    var curr := FinalPosition(p);
    PrefixSlice(out, f, curr, 0, |p.uboot|);
    PrefixSlice(out, f, curr, ADDR_DTB, ADDR_DTB + |p.dtb|);
    PrefixSlice(out, f, curr, ADDR_RAMDISK, curr);
    if |p.kernel| <= KERNEL_ROOM {
      PrefixSlice(out, f, curr, ADDR_KERNEL, ADDR_KERNEL + |p.kernel|);
    }
    if 4 <= |p.dtb| {
      PrefixSlice(out, f, curr, ADDR_DTB, ADDR_DTB + 4);
      assert f[ADDR_DTB..ADDR_DTB + 4] == p.dtb[..4];
    }
    if 4 <= |p.kernel| {
      PrefixSlice(out, f, curr, ADDR_KERNEL, ADDR_KERNEL + 4);
      assert f[ADDR_KERNEL..ADDR_KERNEL + 4] == p.kernel[..4];
    }
    forall i | 0 <= i < ADDR_KERNEL
      ensures out[i] == f[i]
    {
      assert out[i] == out[..curr][i];
    }
  }

  /**
   The merged image: its length, the U-Boot prefix of the old image, the
   device tree at 0xCC800 (ending before 0xD5000), the kernel when it fits its
   room, the ramdisk at 0x500000, and 0xFF from the end of the ramdisk to
   8 MiB when the ramdisk ends below it.
   */
  lemma MergeFirmwareSpec(stock: seq<byte>, src: seq<byte>)
    requires MagicsPresent(src)
    ensures var p := Extract(stock, src);
            var out := MergeFirmware(stock, src);
            var curr := FinalPosition(p);
            && |out| == Max(TOTAL_SIZE, Max(ADDR_KERNEL + |p.kernel|, curr))
            && (|out| == TOTAL_SIZE <==> curr <= TOTAL_SIZE && ADDR_KERNEL + |p.kernel| <= TOTAL_SIZE)
            && out[..Min(|stock|, ADDR_DTB)] == stock[..Min(|stock|, ADDR_DTB)]
            && (ADDR_DTB <= |stock| ==> out[..ADDR_DTB] == stock[..ADDR_DTB])
            && ADDR_DTB + |p.dtb| <= ADDR_KERNEL
            && out[ADDR_DTB..ADDR_DTB + |p.dtb|] == p.dtb
            && (|p.kernel| <= KERNEL_ROOM ==> out[ADDR_KERNEL..ADDR_KERNEL + |p.kernel|] == p.kernel)
            && out[ADDR_RAMDISK..curr] == p.ramdisk
            && (forall i :: curr <= i < TOTAL_SIZE ==> out[i] == 0xFF)
            && (forall i :: |p.uboot| <= i < ADDR_DTB ==> out[i] == 0)
            && (forall i :: ADDR_DTB + |p.dtb| <= i < ADDR_KERNEL ==> out[i] == 0)
  {
    FinishSpec(Extract(stock, src));
  }

  /** Both headers land where a reader of the merged image expects them: the device tree's at 0xCC800, the kernel's at 0xD5000. */
  lemma MergedHeaders(stock: seq<byte>, src: seq<byte>)
    requires MagicsPresent(src)
    ensures var out := MergeFirmware(stock, src);
            && ADDR_KERNEL + 4 <= |out|
            && out[ADDR_DTB..ADDR_DTB + 4] == DTB_MAGIC
            && out[ADDR_KERNEL..ADDR_KERNEL + 4] == UIMAGE_MAGIC
  {
    var p := Extract(stock, src);
    var out := MergeFirmware(stock, src);
    PartsHeaders(stock, src);
    FinishSpec(p);
  }

  /**
   The merged image in terms of the newer image's own bytes: the device tree
   from its magic on (0x8000 bytes, or to the end of the image) at 0xCC800,
   the bytes from the kernel header up to the ramdisk header at 0xD5000 when
   they fit below 0x500000, and everything from the ramdisk header on at
   0x500000.
   */
  lemma MergedFromSource(stock: seq<byte>, src: seq<byte>)
    requires MagicsPresent(src)
    ensures var o := Locate(src);
            var out := MergeFirmware(stock, src);
            var dEnd := Min(o.dtb + DTB_SPAN, |src|);
            var kLen := o.ramdisk - o.kernel;
            && 0 <= o.dtb <= dEnd && 0 <= o.kernel <= o.ramdisk <= |src|
            && ADDR_DTB + (dEnd - o.dtb) <= |out| && out[ADDR_DTB..ADDR_DTB + (dEnd - o.dtb)] == src[o.dtb..dEnd]
            && (kLen <= KERNEL_ROOM ==> out[ADDR_KERNEL..ADDR_KERNEL + kLen] == src[o.kernel..o.ramdisk])
            && ADDR_RAMDISK + (|src| - o.ramdisk) <= |out|
            && out[ADDR_RAMDISK..ADDR_RAMDISK + (|src| - o.ramdisk)] == src[o.ramdisk..]
  {
    LocateOrder(src);
    MergeFirmwareSpec(stock, src);
  }
}

=== FILE: signatures.dfy ===
/** Flash geometry and the magic numbers the scripts look for. */
module Signatures {
  import opened Bytes

  /** The device's 8 MiB NOR flash. */
  const FLASH_SIZE: nat := 8388608

  /** Flattened device tree header, big-endian 0xD00DFEED. */
  const DTB_MAGIC: seq<byte> := [0xD0, 0x0D, 0xFE, 0xED]

  /** Legacy U-Boot image header, big-endian 0x27051956. */
  const UIMAGE_MAGIC: seq<byte> := [0x27, 0x05, 0x19, 0x56]
}

=== FILE: verify.dfy ===
/**
 verify.py: the health check run on a merged image before flashing. It
 rejects an image that is not exactly 8 MiB or whose first 0xCC800 bytes
 differ from the stock image, and otherwise reports whether the device-tree
 and uImage magics sit at 0xCC800 and 0xD5000.
 */
module Verify {
  import opened Bytes
  import opened Signatures
  import Merge

  /** The U-Boot region compared with the stock image, and where the device tree is looked for. */
  const UBOOT_SPAN: nat := 0xCC800
  /** Where the kernel's uImage header is looked for. */
  const KERNEL_AT: nat := 0xD5000

  /**
   The outcome of `check_firmware_health`. The script prints its final
   "healthy" line in the `Completed` case whatever the two magic checks found.
   */
  datatype Verdict = WrongSize(size: nat) | UbootModified | Completed(dtbFound: bool, kernelFound: bool)

  /** Four bytes read at `pos`: fewer near the end of the file. */
  function Read4(data: seq<byte>, pos: nat): (r: seq<byte>)
    ensures |r| == Min(4, |data| - Min(pos, |data|))
    ensures pos + 4 <= |data| ==> r == data[pos..pos + 4]
  {
    Slice(data, pos, pos + 4)
  }

  function CheckFirmwareHealth(mixed: seq<byte>, stock: seq<byte>): (v: Verdict)
    ensures v.WrongSize? <==> |mixed| != FLASH_SIZE
    ensures v.WrongSize? ==> v.size == |mixed|
    ensures v.UbootModified? <==> |mixed| == FLASH_SIZE && (|stock| < UBOOT_SPAN || mixed[..UBOOT_SPAN] != stock[..UBOOT_SPAN])
    ensures v.Completed? <==> |mixed| == FLASH_SIZE && UBOOT_SPAN <= |stock| && mixed[..UBOOT_SPAN] == stock[..UBOOT_SPAN]
    ensures v.Completed? ==> (v.dtbFound <==> mixed[UBOOT_SPAN..UBOOT_SPAN + 4] == DTB_MAGIC)
    ensures v.Completed? ==> (v.kernelFound <==> mixed[KERNEL_AT..KERNEL_AT + 4] == UIMAGE_MAGIC)
  {
    if |mixed| != FLASH_SIZE then WrongSize(|mixed|)
    else if Slice(mixed, 0, UBOOT_SPAN) != Slice(stock, 0, UBOOT_SPAN) then UbootModified
    else Completed(Read4(mixed, UBOOT_SPAN) == DTB_MAGIC, Read4(mixed, KERNEL_AT) == UIMAGE_MAGIC)
  }

  /**
   An image produced by the merge passes the check against the stock image it
   was built from, with both magics found, exactly when the merge came out at
   8 MiB: when the ramdisk ends and the kernel ends no later than 0x800000.
   */
  lemma MergedImagePasses(stock: seq<byte>, src: seq<byte>)
    requires Merge.MagicsPresent(src)
    requires UBOOT_SPAN <= |stock|
    ensures var p := Merge.Extract(stock, src);
            var fits := Merge.FinalPosition(p) <= Merge.TOTAL_SIZE && Merge.ADDR_KERNEL + |p.kernel| <= Merge.TOTAL_SIZE;
            CheckFirmwareHealth(Merge.MergeFirmware(stock, src), stock)
              == if fits then Completed(true, true) else WrongSize(|Merge.MergeFirmware(stock, src)|)
  {
    Merge.MergeFirmwareSpec(stock, src);
    Merge.MergedHeaders(stock, src);
  }
}

=== FILE: wrappers.dfy ===
/** Failure-carrying result types shared by the model. */
module Wrappers {

  /** A value that may be absent. */
  datatype Option<+T> = None | Some(value: T)

  /** Either a computed value or the error that stopped the computation. */
  datatype Result<+T, +E> = Ok(value: T) | Err(error: E)
}
